=== FILE: README.md ===
# Cryptogram game state: a Dafny model

This project models the game-state controller of the Loginboy cryptogram app
(`GameState`) and the two masking helpers of its daily-challenge screen. A
quotation is enciphered letter by letter and the player recovers it by guessing.
The controller:

- picks the mistake limit from the difficulty setting;
- switches to infinite mode after a loss;
- guards guesses and hints;
- resets games, marking the offered saved game as abandoned;
- finds a game to resume;
- saves games into the local store as an upsert keyed by UUID;
- removes duplicate records;
- records daily results in the user's statistics;
- formats times and maps HTTP statuses to error messages.

The model is written in the program's own terms:

- **The store** is a value. `Store` is a sequence of game records plus a table
  of users with optional statistics. The order of the sequence stands for the
  store's fetch order, so "the first match" is the lowest index.
- **Game ids** are strings. A record's id is a UUID, kept as a subset type
  `Identifiers.Uuid` in upper-case canonical form. Parsing a string as a UUID
  (8-4-4-4-12 hex digits, any case) is a concrete function.
- **The puzzle engine** (guess, hint, scoring, enciphering a quote) belongs to
  the game model, which is not part of this model. Each of its operations is
  passed in as a function parameter, and nothing is assumed about it.
- **Timestamps** are integers (seconds). A missing update time sorts as the
  earliest, as the distant-past default does in `cleanupDuplicateGames`.
- **Dictionary iteration order** matters when two string keys share a first
  character. Where it matters, the order is an explicit parameter.

Modules:

| module | file | contents |
|---|---|---|
| `Wrappers` | wrappers.dfy | `Option` |
| `Text` | text.dfy | splitting and joining on a separator, decimal digits, ASCII lower-casing |
| `Identifiers` | identifiers.dfy | UUID text, parsing, the `daily-<date>` id |
| `GameModel` | game_model.dfy | quotes, daily quotes, the in-memory game |
| `MappingCodec` | mapping_codec.dfy | character-map / string-map conversions |
| `UserStats` | user_stats.dfy | the integer statistics and their meaning over a history of results |
| `GameStore` | game_store.dfy | records, look-up of the resumable game, save, abandon, score submission |
| `GameCleanup` | game_cleanup.dfy | duplicate removal |
| `Formatting` | formatting.dfy | `formatTime`, status classification and messages |
| `DailyMasking` | daily_masking.dfy | masking of the quote and the author on the daily screen |
| `GameSession` | game_session.dfy | mistake limits, infinite mode, guess and hint guards, reset, resume offer |

## Notes on the code

- **A `daily-<date>` game is never saved.** `resetGame` gives the rebuilt
  daily game the id `daily-<date>`. `saveGameState` refuses every id that is
  not a UUID, so that game is never written to the store.
  `Identifiers.DailyIdIsNotUuid` and `GameSession.DailyResetGameIsNeverSaved`
  state this.
- **Saves do not compare timestamps.** `saveGameState` overwrites the stored
  record whatever its last update time, and so does `GameStore.SaveGameState`.
- **A save preserves one record per id but does not restore it.** An update
  writes to the first record with the id, so a store that already holds two
  records for an id keeps both. `GameStore.RepeatedSavesKeepOneRecord`
  therefore starts from at most one record for the id.
- **Declining an offered game needs unique ids.** `checkForInProgressGame`
  offers the most recently updated record, but `markGameAsAbandoned` marks the
  first record with the id in fetch order. With two records for one UUID, the
  offered game can stay resumable after a reset.
  `GameSession.DuplicateOfferSurvivesReset` exhibits such a store, and
  `GameSession.ResetAbandonsOfferedGame` proves the reset works when ids are
  unique.
- **The abandon look-up may never match.** `markGameAsAbandoned` fetches with
  `gameId == %@` bound to the id as a `String` (GameState.swift:477), while
  `saveGameState` binds a `UUID` for the same column (GameState.swift:867).
  Whether the store's predicate matches a string against a UUID attribute is
  not settled by the program. `GameStore.IdComparison` makes this a
  parameter. Under `TextMatches` a string matches the UUID it spells, and
  `AbandonedGameIsNotResumable`, `ResetAbandonsOfferedGame` and
  `DuplicateOfferSurvivesReset` are stated for that case. Under
  `NeverMatches` nothing is ever abandoned, and
  `GameSession.UnmatchedResetKeepsOffer` shows that declining an offered
  game then leaves the store unchanged and offers the same record again.

## Model

| member | source | states |
|---|---|---|
| GameSession.MaxMistakesForDifficulty | loginboy/loginboy/Core/GameState.swift:43-49 | the limit is 8 exactly for "easy" and 3 exactly for "hard" (compared ignoring case), and 5 for any other setting |
| GameSession.EnableInfiniteMode | loginboy/loginboy/Core/GameState.swift:196-204 | infinite mode is on; a current game loses its lost flag and gets the limit 999; nothing else in the game or session changes |
| GameSession.MakeGuess | loginboy/loginboy/Core/GameState.swift:499-521 | without a game or a selected letter nothing changes; otherwise the guessed game becomes current and the store is exactly the store after one save of it, so it is found first under its key unless infinite mode or a non-UUID id prevents saving; a completion with the game's result, score, elapsed time and mistakes is reported exactly when the game is won or lost; the win or lose message is raised to match; no other session field changes |
| GameSession.GetHint | loginboy/loginboy/Core/GameState.swift:532-557 | a hint is taken only while mistakes are below the limit, otherwise nothing changes; after a hint, the same save, report, message and frame effects as a guess |
| GameSession.InfiniteModeHintGuard | loginboy/loginboy/Core/GameState.swift:196-204 | after infinite mode is on, a hint is refused exactly at 999 or more mistakes and never touches the store |
| GameSession.SetupCustomGame | loginboy/loginboy/Core/GameState.swift:71-163 | a custom game enciphered by the engine from the picked quote, or from the fallback quote when none is available, with the settings difficulty and its mistake limit; a picked quote gets the fresh UUID and clears the win and lose messages; the fallback keeps the engine's id and the messages; the saved game, infinite mode and the continue dialog are untouched |
| GameSession.ResetGame | loginboy/loginboy/Core/GameState.swift:438-469 | infinite mode ends and the saved game is dropped; a saved game with an id is marked abandoned in the store under the given id comparison, otherwise the store is untouched; a daily session with a quote restarts with the engine's encipherment of that quote, under `daily-<date>`, with the settings difficulty and limit and both messages cleared; any other session becomes the custom-game setup |
| GameSession.DailyResetGameIsNeverSaved | loginboy/loginboy/Core/GameState.swift:438-469 | after a daily reset, a guess by an engine that keeps the id never changes the store |
| GameSession.CheckForInProgressGame | loginboy/loginboy/Core/GameState.swift:381-410 | when a resumable game exists it is offered, the continue dialog is shown and nothing else changes; otherwise the session is unchanged |
| GameSession.ResetAbandonsOfferedGame | loginboy/loginboy/Core/GameState.swift:438-494 | with unique ids, declining the offered game by resetting leaves no resumable record with its id |
| GameSession.DuplicateOfferSurvivesReset | loginboy/loginboy/Core/GameState.swift:381-494 | with two records sharing a UUID, the newer one is offered, the reset marks the older one lost, and the offered record stays resumable |
| GameSession.UnmatchedResetKeepsOffer | loginboy/loginboy/Core/GameState.swift:381-494 | when the id string never matches the UUID column, resetting after an offer leaves the store unchanged, and the same record is offered again in the same mode |
| GameSession.Reset | loginboy/loginboy/Core/GameState.swift:812-825 | the session is cleared: no saved game, not daily, no win, lose or continue message; the current game is the engine's encipherment of the fixed default quote with the settings difficulty and its mistake limit; infinite mode and the daily quote are untouched |
| GameSession.ResetBuildsFallbackGame | loginboy/loginboy/Core/GameState.swift:51-66 | the game `reset` builds is the game a custom setup builds when no quote is available, up to the quote's floating-point difficulty (2.0 against none), which the model drops |
| GameStore.Newest | loginboy/loginboy/Core/GameState.swift:384-399 | none exactly when no record is selected; otherwise a selected record whose update time no selected record beats, and the first such |
| GameStore.InProgressGame | loginboy/loginboy/Core/GameState.swift:384-406 | the result is an unfinished record of the requested mode and the most recently updated one |
| GameStore.UpdateGameEntity | loginboy/loginboy/Core/GameState.swift:656-680 | the record holds every field of the game (mappings as string maps) and the mode, and keeps id, start time, user, score and time taken |
| GameStore.StoredMappingRoundTrip | loginboy/loginboy/Core/GameState.swift:656-680 | reading back a saved record's cipher mapping, in any dictionary order, gives the game's mapping |
| GameStore.SaveKey | loginboy/loginboy/Core/GameState.swift:843-857 | a save has a key exactly when not in infinite mode and the game id is present and is UUID text; the key is that id spelled in upper case |
| GameStore.SaveGameState | loginboy/loginboy/Core/GameState.swift:843-923 | no key means no change; otherwise the first record with the key is overwritten, or one is appended when none exists; no other record changes; the start time is kept on update and taken from the game on insert; score and time are written only for a finished game; the signed-in user is linked and created without statistics if unknown |
| GameStore.SaveKeepsIdsUnique | loginboy/loginboy/Core/GameState.swift:843-923 | a save keeps ids unique |
| GameStore.SaveIdempotent | loginboy/loginboy/Core/GameState.swift:843-923 | saving the same state twice equals saving it once |
| GameStore.RepeatedSavesKeepOneRecord | loginboy/loginboy/Core/GameState.swift:843-923 | saving any number of states of one game, from at most one record for its id, leaves exactly one record for that id, holding the last state |
| GameStore.AbandonTarget | loginboy/loginboy/Core/GameState.swift:476-481 | under `NeverMatches` no record is found; under `TextMatches` none is found for a string that is not UUID text, and otherwise the first record with the UUID it spells |
| GameStore.MarkGameAsAbandoned | loginboy/loginboy/Core/GameState.swift:472-494 | an id with no record changes nothing; otherwise only the first matching record's lost flag is set; the linked user's positive streak becomes 0, a non-positive one and every other user are left alone; consistent statistics stay consistent |
| GameStore.AbandonedGameIsNotResumable | loginboy/loginboy/Core/GameState.swift:472-494 | with unique ids, no record with the abandoned id is resumable afterwards |
| GameStore.SubmitDailyScore | loginboy/loginboy/Core/GameState.swift:757-792 | nothing changes without a finished game or a known user; otherwise only that user's statistics change, by recording the result (created fresh when absent), and consistency is kept |
| UserStats.RecordResult | loginboy/loginboy/Core/GameState.swift:782-792 | played and score always grow; a win grows wins and the streak and raises the best streak to the streak; a loss clears the streak; consistency is kept |
| UserStats.ReplayMatchesHistory | loginboy/loginboy/Core/GameState.swift:782-792 | statistics built from a history of results count its games, wins and scores; the streak is the trailing run of wins; the best streak is the longest run of wins |
| GameCleanup.CleanupDuplicateGames | loginboy/loginboy/Core/GameState.swift:683-755 | records are only deleted, and the survivors keep their original order (the result is a subsequence of the input); afterwards ids are unique; no id is lost; each kept record is the newest of its id; every record without an id is kept as often as it occurs; records with an already unique id are kept |
| GameCleanup.CleanupOfUniqueIsIdentity | loginboy/loginboy/Core/GameState.swift:683-755 | a store whose ids are already unique is left as it is |
| GameCleanup.CleanupIdempotent | loginboy/loginboy/Core/GameState.swift:683-755 | cleaning twice equals cleaning once |
| MappingCodec.CharToStringMap | loginboy/loginboy/Core/GameState.swift:835-841 | keys and values are the one-character strings of the original keys and values |
| MappingCodec.StringToCharMap | loginboy/loginboy/Core/GameState.swift:925-933 | keys are the first characters of keys with a non-empty key and value; each value is the first character of some such value; without two such keys sharing a first character, each entry is carried over |
| MappingCodec.CharMapRoundTrip | loginboy/loginboy/Core/GameState.swift:835-841 | converting a character map to strings and back, in any order, gives the map again |
| MappingCodec.EncodeIncorrectGuessesInjective | loginboy/loginboy/Core/GameState.swift:673-676 | different incorrect-guess tables are stored differently |
| Identifiers.ParseUuid | loginboy/loginboy/Core/GameState.swift:852-855 | parsing succeeds exactly on UUID text and yields its upper-case form |
| Identifiers.ParseIgnoresHexCase | loginboy/loginboy/Core/GameState.swift:852-855 | two UUID spellings parse to the same UUID exactly when they agree up to hex letter case |
| Identifiers.DailyIdIsNotUuid | loginboy/loginboy/Core/GameState.swift:458 | a `daily-<date>` id is never UUID text |
| Formatting.FormatTime | loginboy/loginboy/Core/GameState.swift:828-832 | for non-negative seconds: minutes without leading zeros, a colon and two digits, reading back as the quotient and remainder by 60 |
| Formatting.FormatTimeRoundTrip | loginboy/loginboy/Core/GameState.swift:828-832 | parsing a formatted non-negative time gives the seconds back |
| Formatting.ClassifyStatus | loginboy/loginboy/Core/GameState.swift:290-333 | 200 is no error, 401 requires authentication, 404 means no daily challenge, any other status is a server error carrying the status |
| Formatting.ErrorMessage | loginboy/loginboy/Core/GameState.swift:327-333 | reading a message back gives the failure it reports, including the status of a server error; the reader accepts a server message only when its number is written exactly as a status is printed; `MessagesDistinguishErrors` is its consequence |
| Text.FormatIntRoundTrip | loginboy/loginboy/Core/GameState.swift:332 | an interpolated status reads back as the same integer |
| Formatting.MessagesDistinguishErrors | loginboy/loginboy/Core/GameState.swift:327-333 | different errors produce different messages |
| DailyMasking.MaskWord | loginboy/loginboy/Features/Daily/DailyView.swift:230-241 | same length; words of three or fewer characters unchanged; first and last kept; bullets between; no space introduced |
| DailyMasking.MaskQuote | loginboy/loginboy/Features/Daily/DailyView.swift:226-243 | same length, spaces exactly where the text has them, and its words are the masked words of the text |
| DailyMasking.MaskAuthor | loginboy/loginboy/Features/Daily/DailyView.swift:246-272 | a single name is unchanged; otherwise the initials of all but the last name, each followed by a dot and a space, then the last name |
| DailyMasking.TwoNames | loginboy/loginboy/Features/Daily/DailyView.swift:246-272 | a first and a last name become the first initial, a dot, a space and the last name |

## Left out

- The local database, JSON encoding, the network request, dates and calendars, random choice and UUID generation, sound and logging are not modelled. Their results are parameters, or the store is a value.
- The game model (enciphering, guessing, hinting, scoring, `toModel`) is not part of this model and appears as function parameters. `UserState.updateStats` and the upload queue are not part of this model either: a finished move reports a `Completion` instead of calling them.
- `selectLetter` passes the letter to the game model's own `selectLetter` and stores the result. `continueSavedGame` makes the saved game current and looks up the quote's author by solution text. Both are left out, since the engine step is not part of this model and the look-up only fills display fields.
- `setupDailyChallenge`, `setupFromDailyQuote`, `fetchDailyQuoteFromAPI` and `saveQuoteToCoreData` depend on the date, the network and the quote table. Only their status-to-error mapping is modelled.
- `convertToGameModel`, `createGameEntity` and `printGameDetails` are left out. `convertToGameModel` and `createGameEntity` are not reached from the modelled operations. `printGameDetails` only prints.
- GameSession.ResetBuildsFallbackGame: `setupDefaultGame` builds its quote with difficulty 2.0 (GameState.swift:57) and the custom-setup fallback with none (GameState.swift:155). `Quote` drops that field, so the equality holds only for an engine that ignores it.
- GameSession.Reset: the loading flag, error message and display fields that `reset` clears are not modelled, and neither is the default quote's floating-point difficulty.
- Stored `Int16`/`Int32` columns trap on overflow in the app. Integers here are unbounded, and no overflow is modelled.
- The average-mistakes and average-time fields of the statistics and the last-played date are floating-point or clock values. They are left out.
- Swift `Character` is a grapheme cluster and `lowercased()` is full Unicode. Here a character is a code point and lower-casing is ASCII, which decides every comparison with "easy" and "hard".
- The order in which the store returns records, and Swift's unstable sort, decide ties between equal update times. The model takes the first record in store order.
- Formatting.FormatTime: for negative seconds only the presence of a minus sign is stated, not the exact C `%d:%02d` layout.
- GameSession.SetupCustomGame: the error message and loading flag it sets are not modelled.
- The quote's `difficulty` is a floating-point value that the quote model hands to the engine. `Quote` and `DailyQuote` leave it out, and the engine parameters never see it.
- The display fields `quoteAuthor`, `quoteAttribution` and `quoteDate` that the custom and daily setups fill in are not modelled. They are not read by any modelled operation.
- The background increment of the picked quote's `timesUsed` counter in `setupCustomGame` is not modelled. The quote table is not part of the store here.

=== FILE: daily_masking.dfy ===
/**
 * The preview helpers of the daily challenge screen: a quote with the
 * inside of every long word hidden, and an author name reduced to
 * initials and the last name.
 */
module DailyMasking {
  import opened Text

  /** The bullet (U+2022) that hides a letter. */
  const Bullet: char := '•'

  /** Words of up to three characters stay; longer ones keep only their first and last character. */
  function MaskWord(w: string): (r: string)
    ensures |r| == |w|
    ensures |w| <= 3 ==> r == w
    ensures |w| > 3 ==> r[0] == w[0] && r[|w| - 1] == w[|w| - 1]
    ensures |w| > 3 ==> forall i :: 0 < i < |w| - 1 ==> r[i] == Bullet
    ensures ' ' !in w ==> ' ' !in r
  {
    if |w| <= 3 then w
    else [w[0]] + seq(|w| - 2, _ => Bullet) + [w[|w| - 1]]
  }

  function MaskWords(ws: seq<string>): (vs: seq<string>)
    ensures |vs| == |ws|
    ensures forall k :: 0 <= k < |ws| ==> vs[k] == MaskWord(ws[k])
  {
    seq(|ws|, k requires 0 <= k < |ws| => MaskWord(ws[k]))
  }

  /** Words of the same lengths, joined, give strings of the same length with spaces at the same places. */
  lemma {:induction false} JoinSameShape(ws: seq<string>, vs: seq<string>)
    requires |ws| == |vs| >= 1
    requires forall k :: 0 <= k < |ws| ==> |ws[k]| == |vs[k]| && ' ' !in ws[k] && ' ' !in vs[k]
    ensures |Join(ws, ' ')| == |Join(vs, ' ')|
    ensures forall i :: 0 <= i < |Join(ws, ' ')| ==> (Join(ws, ' ')[i] == ' ' <==> Join(vs, ' ')[i] == ' ')
  {
    if |ws| > 1 {
      JoinSameShape(ws[1..], vs[1..]);
      var a := Join(ws, ' ');
      var b := Join(vs, ' ');
      var n := |ws[0]|;
      assert a == ws[0] + " " + Join(ws[1..], ' ');
      assert b == vs[0] + " " + Join(vs[1..], ' ');
      forall i | 0 <= i < |a| ensures a[i] == ' ' <==> b[i] == ' ' {
        if i < n {
          assert a[i] == ws[0][i] && ws[0][i] in ws[0];
          assert b[i] == vs[0][i] && vs[0][i] in vs[0];
        } else if i > n {
          assert a[i] == Join(ws[1..], ' ')[i - n - 1];
          assert b[i] == Join(vs[1..], ' ')[i - n - 1];
        }
      }
    }
  }

  /**
   * The quote preview: the text split at single spaces, each word masked,
   * and the words joined again with single spaces.
   */
  function MaskQuote(text: string): (r: string)
    ensures |r| == |text|
    ensures forall i :: 0 <= i < |text| ==> (r[i] == ' ' <==> text[i] == ' ')
    ensures Split(r, ' ') == MaskWords(Split(text, ' '))
  {
    var ws := Split(text, ' ');
    var vs := MaskWords(ws);
    JoinSplit(text, ' ');
    JoinSameShape(ws, vs);
    SplitJoin(vs, ' ');
    Join(vs, ' ')
  }

  /** `String(component.prefix(1))`: the first character, or nothing for an empty component. */
  function Initial(c: string): string {
    if |c| == 0 then "" else [c[0]]
  }

  /** Each component's initial followed by ". ". */
  function Initials(cs: seq<string>): string {
    if |cs| == 0 then "" else Initials(cs[..|cs| - 1]) + Initial(cs[|cs| - 1]) + ". "
  }

  /** The text built by the loop over the first `n` of the components: initials, and the last one in full. */
  function AppendComponents(cs: seq<string>, n: nat): (r: string)
    requires n <= |cs|
    ensures n < |cs| ==> r == Initials(cs[..n])
    ensures n == |cs| > 0 ==> r == Initials(cs[..n - 1]) + cs[n - 1]
  {
    if n == 0 then ""
    else
      var prev := AppendComponents(cs, n - 1);
      assert cs[..n][..n - 1] == cs[..n - 1];
      if n - 1 == |cs| - 1 then prev + cs[n - 1] else prev + Initial(cs[n - 1]) + ". "
  }

  /**
   * The author preview: a single name as it is, two names as "F. Last",
   * more names as initials of all but the last followed by the last.
   */
  function MaskAuthor(author: string): (r: string)
    ensures ' ' !in author ==> r == author
    ensures var cs := Split(author, ' '); r == Initials(cs[..|cs| - 1]) + cs[|cs| - 1]
  {
    var cs := Split(author, ' ');
    if |cs| == 1 then
      JoinSplit(author, ' ');
      author
    else if |cs| == 2 then
      assert cs[..1] == [cs[0]];
      assert Initials(cs[..1]) == Initial(cs[0]) + ". " by {
        assert cs[..1][..0] == [];
      }
      Initial(cs[0]) + ". " + cs[1]
    else
      AppendComponents(cs, |cs|)
  }

  /** A name with exactly one space becomes the first name's initial, ". ", and the second name. */
  lemma TwoNames(author: string, k: int)
    requires 0 <= k < |author| && author[k] == ' '
    requires forall i :: 0 <= i < |author| && i != k ==> author[i] != ' '
    ensures MaskAuthor(author) == Initial(author[..k]) + ". " + author[k + 1..]
  {
    var first := author[..k];
    var last := author[k + 1..];
    assert ' ' !in first by {
      forall j | 0 <= j < |first| ensures first[j] != ' ' { assert first[j] == author[j]; }
    }
    assert ' ' !in last by {
      forall j | 0 <= j < |last| ensures last[j] != ' ' { assert last[j] == author[k + 1 + j]; }
    }
    assert Join([first, last], ' ') == author;
    SplitJoin([first, last], ' ');
    var cs := [first, last];
    assert cs[..1] == [first];
    assert Initials([first]) == Initial(first) + ". " by {
      assert [first][..0] == [];
    }
  }
}

=== FILE: formatting.dfy ===
/**
 * Two small helpers of the game state: rendering elapsed seconds as
 * `m:ss`, and turning a failed daily-challenge fetch status into the
 * message shown to the player.
 */
module Formatting {
  import opened Wrappers
  import opened Text

  /** Swift's `/` on `Int`: the quotient rounded toward zero. */
  function TruncDiv(a: int, b: int): int
    requires b > 0
  {
    if a >= 0 then a / b else -((-a) / b)
  }

  /** Swift's `%` on `Int`: the remainder takes the sign of the dividend. */
  function TruncRem(a: int, b: int): int
    requires b > 0
  {
    a - b * TruncDiv(a, b)
  }

  /** `%02d`: zero-padded to two characters; a sign counts toward the width. */
  function Pad2(n: int): string {
    if 0 <= n < 10 then "0" + Decimal(n) else FormatInt(n)
  }

  /** `String(format: "%d:%02d", seconds / 60, seconds % 60)`. */
  function FormatTime(seconds: int): (r: string)
    ensures seconds >= 0 ==>
      && |r| >= 4
      && r[|r| - 3] == ':'
      && (forall i :: 0 <= i < |r| && i != |r| - 3 ==> IsDigit(r[i]))
      && ParseDecimal(r[..|r| - 3]) == seconds / 60
      && (r[0] == '0' ==> |r| == 4)
      && ParseDecimal(r[|r| - 2..]) == seconds % 60 < 60
    ensures seconds < 0 ==> '-' in r
  {
    var minutes := TruncDiv(seconds, 60);
    var secs := TruncRem(seconds, 60);
    var r := FormatInt(minutes) + ":" + Pad2(secs);
    if seconds >= 0 then
      ParseDecimalOfDecimal(minutes);
      ParseDecimalOfDecimal(secs);
      var m := Decimal(minutes);
      var p := Pad2(secs);
      assert r == m + ":" + p;
      assert |p| == 2 by {
        if secs >= 10 {
          assert secs / 10 < 10;
        }
      }
      assert r[..|r| - 3] == m;
      assert r[|r| - 2..] == p;
      assert r[0] == m[0];
      assert ParseDecimal(p) == secs by {
        if secs < 10 {
          assert p[..1] == "0";
        }
      }
      r
    else if minutes < 0 then
      assert r[0] == '-';
      r
    else
      assert secs < 0;
      assert r[|FormatInt(minutes)| + 1] == '-';
      r
  }

  /** Reads `m:ss` back into seconds: digits, a colon, exactly two digits below 60. */
  function ParseTime(t: string): Option<int> {
    var i := IndexOf(t, ':');
    if i == |t| then None
    else
      var m := t[..i];
      var s := t[i + 1..];
      if |m| >= 1 && |s| == 2 && (forall k :: 0 <= k < |t| && k != i ==> IsDigit(t[k])) && ParseDecimal(s) < 60
      then Some(ParseDecimal(m) * 60 + ParseDecimal(s))
      else None
  }

  /** What `ParseTime` reads from well-formed `m:ss` text whose colon sits at `i`. */
  lemma ParseTimeOf(t: string, i: nat)
    requires i < |t| && IndexOf(t, ':') == i
    requires i >= 1 && |t| == i + 3
    requires forall k :: 0 <= k < |t| && k != i ==> IsDigit(t[k])
    requires ParseDecimal(t[i + 1..]) < 60
    ensures ParseTime(t) == Some(ParseDecimal(t[..i]) * 60 + ParseDecimal(t[i + 1..]))
  {
  }

  /** Text shaped as `FormatTime` promises for `seconds` reads back as `seconds`. */
  lemma ParseTimeText(r: string, seconds: nat)
    requires |r| >= 4 && r[|r| - 3] == ':'
    requires forall i :: 0 <= i < |r| && i != |r| - 3 ==> IsDigit(r[i])
    requires ParseDecimal(r[..|r| - 3]) == seconds / 60
    requires ParseDecimal(r[|r| - 2..]) == seconds % 60 < 60
    ensures ParseTime(r) == Some(seconds)
  {
    var c := |r| - 3;
    assert IndexOf(r, ':') == c by {
      assert r[c] == ':';
    }
    assert r[c + 1..] == r[|r| - 2..];
    ParseTimeOf(r, c);
  }

  /** A non-negative number of seconds survives formatting and reading back. */
  lemma FormatTimeRoundTrip(seconds: int)
    requires seconds >= 0
    ensures ParseTime(FormatTime(seconds)) == Some(seconds)
  {
    ParseTimeText(FormatTime(seconds), seconds);
  }

  /** Why the daily challenge could not be fetched, by HTTP status. */
  datatype FetchError = AuthenticationRequired | NoDailyChallenge | ServerError(status: int)

  /** The outcome of a daily-challenge response: 200 succeeds, anything else is an error. */
  function ClassifyStatus(status: int): (r: Option<FetchError>)
    ensures r.None? <==> status == 200
    ensures r == Some(AuthenticationRequired) <==> status == 401
    ensures r == Some(NoDailyChallenge) <==> status == 404
    ensures r.Some? && r.value.ServerError? ==> r.value.status == status
  {
    if status == 200 then None
    else if status == 401 then Some(AuthenticationRequired)
    else if status == 404 then Some(NoDailyChallenge)
    else Some(ServerError(status))
  }

  /** The message shown for a failed fetch. */
  function ErrorMessage(e: FetchError): (r: string)
    // The message identifies the failure: reading it back gives the failure, status included.
    ensures ReadMessage(r) == Some(e)
  {
    match e
    case AuthenticationRequired => "Authentication required"
    case NoDailyChallenge => "No daily challenge available today"
    case ServerError(status) =>
      var m := "Server error (" + FormatInt(status) + ")";
      FormatIntRoundTrip(status);
      assert m[..14] == "Server error (";
      assert m[14..|m| - 1] == FormatInt(status);
      m
  }

  /** The failure a message reports, if it is one of the fetch messages. */
  function ReadMessage(m: string): Option<FetchError> {
    if m == "Authentication required" then Some(AuthenticationRequired)
    else if m == "No daily challenge available today" then Some(NoDailyChallenge)
    else if |m| >= 15 && m[..14] == "Server error (" && m[|m| - 1] == ')'
            && FormatInt(ParseInt(m[14..|m| - 1])) == m[14..|m| - 1] then
      Some(ServerError(ParseInt(m[14..|m| - 1])))
    else None
  }

  /** Different failures are reported with different messages. */
  lemma MessagesDistinguishErrors(e1: FetchError, e2: FetchError)
    requires e1 != e2
    ensures ErrorMessage(e1) != ErrorMessage(e2)
  {
  }
}

=== FILE: game_cleanup.dfy ===
/**
 * The duplicate clean-up pass over the stored games: records are grouped
 * by id, and of every group with more than one record only the most
 * recently updated one is kept (a missing update time counting as the
 * earliest; among equally recent ones, the first in store order). Records
 * without an id are never touched.
 */
module GameCleanup {
  import opened Wrappers
  import opened Identifiers
  import opened GameStore

  function WithId(id: Option<Uuid>): GameRecord -> bool {
    (g: GameRecord) => g.gameId == id
  }

  /** The record at `i` is kept: it has no id, or it is the newest of the records with its id. */
  predicate Survives(games: seq<GameRecord>, i: int)
    requires 0 <= i < |games|
  {
    games[i].gameId.None? || Newest(games, WithId(games[i].gameId)) == Some(i)
  }

  /** The survivors' mask. */
  function SurvivorMask(games: seq<GameRecord>): (mask: seq<bool>)
    ensures |mask| == |games|
    ensures forall i :: 0 <= i < |games| ==> mask[i] == Survives(games, i)
  {
    seq(|games|, i requires 0 <= i < |games| => Survives(games, i))
  }

  /** Positions below `n` whose mask entry is set, in increasing order. */
  function Positions(mask: seq<bool>, n: nat): (ks: seq<nat>)
    requires n <= |mask|
    ensures forall k :: 0 <= k < |ks| ==> ks[k] < n
  {
    if n == 0 then []
    else Positions(mask, n - 1) + (if mask[n - 1] then [n - 1] else [])
  }

  /** One more step of `Positions` adds `n - 1` exactly when its mask entry is set. */
  lemma PositionsSnoc(mask: seq<bool>, n: nat)
    requires 0 < n <= |mask|
    ensures mask[n - 1] ==> Positions(mask, n) == Positions(mask, n - 1) + [n - 1]
    ensures !mask[n - 1] ==> Positions(mask, n) == Positions(mask, n - 1)
  {
  }

  /** Every position listed has its mask entry set. */
  lemma {:induction false} PositionsAreSet(mask: seq<bool>, n: nat)
    requires n <= |mask|
    ensures forall k :: 0 <= k < |Positions(mask, n)| ==> mask[Positions(mask, n)[k]]
  {
    if n > 0 {
      PositionsAreSet(mask, n - 1);
      PositionsSnoc(mask, n);
    }
  }

  /** The positions are listed in increasing order. */
  lemma {:induction false} PositionsIncrease(mask: seq<bool>, n: nat)
    requires n <= |mask|
    ensures forall k, l :: 0 <= k < l < |Positions(mask, n)| ==> Positions(mask, n)[k] < Positions(mask, n)[l]
  {
    if n > 0 {
      PositionsIncrease(mask, n - 1);
      PositionsSnoc(mask, n);
    }
  }

  /** Every set position below `n` is listed. */
  lemma {:induction false} PositionsCover(mask: seq<bool>, n: nat)
    requires n <= |mask|
    ensures forall i :: 0 <= i < n && mask[i] ==> i in Positions(mask, n)
  {
    if n > 0 {
      PositionsCover(mask, n - 1);
      PositionsSnoc(mask, n);
      var ks := Positions(mask, n - 1);
      forall i | 0 <= i < n && mask[i]
        ensures i in Positions(mask, n)
      {
        if i < n - 1 {
          var k :| 0 <= k < |ks| && ks[k] == i;
          assert Positions(mask, n)[k] == i;
        } else {
          assert Positions(mask, n)[|ks|] == i;
        }
      }
    }
  }

  /** Positions of the records that are kept, in increasing order. */
  function KeptIndices(games: seq<GameRecord>): (ks: seq<nat>)
    ensures forall k :: 0 <= k < |ks| ==> ks[k] < |games| && Survives(games, ks[k])
    ensures forall k, l :: 0 <= k < l < |ks| ==> ks[k] < ks[l]
    ensures forall i :: 0 <= i < |games| && Survives(games, i) ==> i in ks
  {
    PositionsAreSet(SurvivorMask(games), |games|);
    PositionsIncrease(SurvivorMask(games), |games|);
    PositionsCover(SurvivorMask(games), |games|);
    Positions(SurvivorMask(games), |games|)
  }

  /** The records at positions `ks`, in that order. */
  function Pick<T>(games: seq<T>, ks: seq<nat>): (r: seq<T>)
    requires forall k :: 0 <= k < |ks| ==> ks[k] < |games|
    ensures |r| == |ks| && forall k :: 0 <= k < |ks| ==> r[k] == games[ks[k]]
  {
    if |ks| == 0 then [] else Pick(games, ks[..|ks| - 1]) + [games[ks[|ks| - 1]]]
  }

  /** The elements below `n` whose mask entry is set, in order. */
  function Keep<T>(xs: seq<T>, mask: seq<bool>, n: nat): seq<T>
    requires n <= |xs| && |mask| == |xs|
  {
    if n == 0 then [] else Keep(xs, mask, n - 1) + (if mask[n - 1] then [xs[n - 1]] else [])
  }

  /** The first `n` elements are the first `n - 1` and the element at `n - 1`. */
  lemma PrefixSnoc<T>(xs: seq<T>, n: nat)
    requires 0 < n <= |xs|
    ensures multiset(xs[..n]) == multiset(xs[..n - 1]) + multiset{xs[n - 1]}
  {
    assert xs[..n] == xs[..n - 1] + [xs[n - 1]];
  }

  /** One more step of `Keep` adds the element at `n - 1` exactly when its mask entry is set. */
  lemma KeepSnoc<T>(xs: seq<T>, mask: seq<bool>, n: nat)
    requires 0 < n <= |xs| && |mask| == |xs|
    ensures multiset(Keep(xs, mask, n)) ==
      multiset(Keep(xs, mask, n - 1)) + (if mask[n - 1] then multiset{xs[n - 1]} else multiset{})
  {
  }

  /** Keeping only deletes: the kept elements are a sub-multiset of the first `n`. */
  lemma {:induction false} KeepOnlyDeletes<T>(xs: seq<T>, mask: seq<bool>, n: nat)
    requires n <= |xs| && |mask| == |xs|
    ensures multiset(Keep(xs, mask, n)) <= multiset(xs[..n])
  {
    if n > 0 {
      KeepOnlyDeletes(xs, mask, n - 1);
      KeepSnoc(xs, mask, n);
      PrefixSnoc(xs, n);
    }
  }

  /** An element whose every position is kept keeps all its copies. */
  lemma {:induction false} KeepKeepsAll<T>(xs: seq<T>, mask: seq<bool>, n: nat, g: T)
    requires n <= |xs| && |mask| == |xs|
    requires forall j :: 0 <= j < n && xs[j] == g ==> mask[j]
    ensures multiset(Keep(xs, mask, n))[g] == multiset(xs[..n])[g]
  {
    if n > 0 {
      KeepKeepsAll(xs, mask, n - 1, g);
      KeepCountStep(xs, mask, n, g);
    }
  }

  /** One step of `Keep` adds as many copies of `g` as the prefix grows by, when `g`'s position is kept. */
  lemma KeepCountStep<T>(xs: seq<T>, mask: seq<bool>, n: nat, g: T)
    requires 0 < n <= |xs| && |mask| == |xs|
    requires xs[n - 1] == g ==> mask[n - 1]
    ensures multiset(Keep(xs, mask, n))[g] + multiset(xs[..n - 1])[g]
         == multiset(xs[..n])[g] + multiset(Keep(xs, mask, n - 1))[g]
  {
    var before := multiset(Keep(xs, mask, n - 1));
    KeepSnoc(xs, mask, n);
    PrefixSnoc(xs, n);
    if mask[n - 1] {
      assert multiset(Keep(xs, mask, n)) == before + multiset{xs[n - 1]};
    } else {
      assert xs[n - 1] != g;
      assert multiset(Keep(xs, mask, n)) == before;
    }
  }

  /** `a` is `b` with some elements removed, the rest in their order. */
  ghost predicate Subsequence<T>(a: seq<T>, b: seq<T>)
    decreases |b|
  {
    if |a| == 0 then true
    else if |b| == 0 then false
    else
      || (a[|a| - 1] == b[|b| - 1] && Subsequence(a[..|a| - 1], b[..|b| - 1]))
      || Subsequence(a, b[..|b| - 1])
  }

  /** Keeping by a mask removes elements without reordering the rest. */
  lemma {:induction false} KeepIsSubsequence<T>(xs: seq<T>, mask: seq<bool>, n: nat)
    requires n <= |xs| && |mask| == |xs|
    ensures Subsequence(Keep(xs, mask, n), xs[..n])
  {
    if n > 0 {
      KeepIsSubsequence(xs, mask, n - 1);
      var before := Keep(xs, mask, n - 1);
      assert xs[..n][..n - 1] == xs[..n - 1];
      if mask[n - 1] {
        var after := before + [xs[n - 1]];
        assert Keep(xs, mask, n) == after;
        assert after[..|after| - 1] == before;
      } else {
        assert Keep(xs, mask, n) == before;
      }
    }
  }

  /** Picking one more position appends its element. */
  lemma PickSnoc<T>(xs: seq<T>, ks: seq<nat>, x: nat)
    requires forall k :: 0 <= k < |ks| ==> ks[k] < |xs|
    requires x < |xs|
    ensures Pick(xs, ks + [x]) == Pick(xs, ks) + [xs[x]]
  {
    assert (ks + [x])[..|ks|] == ks;
  }

  /** Picking the set positions of a mask is keeping by that mask. */
  lemma {:induction false} PickIsKeep<T>(xs: seq<T>, mask: seq<bool>, n: nat)
    requires n <= |xs| && |mask| == |xs|
    ensures Pick(xs, Positions(mask, n)) == Keep(xs, mask, n)
  {
    if n > 0 {
      var ks := Positions(mask, n - 1);
      PositionsSnoc(mask, n);
      if mask[n - 1] {
        calc {
          Pick(xs, Positions(mask, n));
          Pick(xs, ks + [n - 1]);
        == { PickSnoc(xs, ks, n - 1); }
          Pick(xs, ks) + [xs[n - 1]];
        == { PickIsKeep(xs, mask, n - 1); }
          Keep(xs, mask, n - 1) + [xs[n - 1]];
          Keep(xs, mask, n);
        }
      } else {
        PickIsKeep(xs, mask, n - 1);
      }
    }
  }

  /** Only deletions, in order, and every record without an id kept as often as it occurs. */
  lemma KeptIdless(games: seq<GameRecord>, ks: seq<nat>)
    requires ks == KeptIndices(games)
    ensures multiset(Pick(games, ks)) <= multiset(games)
    ensures forall g: GameRecord :: g.gameId.None? ==> multiset(Pick(games, ks))[g] == multiset(games)[g]
    ensures Subsequence(Pick(games, ks), games)
  {
    var mask := SurvivorMask(games);
    PickIsKeep(games, mask, |games|);
    assert games[..|games|] == games;
    KeepOnlyDeletes(games, mask, |games|);
    KeepIsSubsequence(games, mask, |games|);
    forall g: GameRecord | g.gameId.None?
      ensures multiset(Pick(games, ks))[g] == multiset(games)[g]
    {
      KeepKeepsAll(games, mask, |games|, g);
    }
  }

  /** The store's games after the clean-up pass, in their original order. */
  function CleanupDuplicateGames(games: seq<GameRecord>): (r: seq<GameRecord>)
    // At most one record per id afterwards.
    ensures UniqueIds(r)
    // Records are only deleted, the survivors in their original order: nothing is
    // invented, repeated or moved, and no id disappears.
    ensures Subsequence(r, games)
    ensures multiset(r) <= multiset(games)
    ensures forall k :: 0 <= k < |r| ==> r[k] in games
    ensures forall i :: 0 <= i < |games| && games[i].gameId.Some? ==>
      exists k :: 0 <= k < |r| && r[k].gameId == games[i].gameId
    // The survivor of a group is at least as recent as every record of its group.
    ensures forall k, i :: 0 <= k < |r| && 0 <= i < |games| && r[k].gameId.Some? && games[i].gameId == r[k].gameId ==>
      !Newer(games[i].lastUpdateTime, r[k].lastUpdateTime)
    // Records without an id, and records whose id was already unique, are kept.
    ensures forall i :: 0 <= i < |games| && games[i].gameId.None? ==> games[i] in r
    ensures forall g: GameRecord :: g.gameId.None? ==> multiset(r)[g] == multiset(games)[g]
    ensures forall i :: 0 <= i < |games| && (forall j :: 0 <= j < |games| && j != i ==> games[j].gameId != games[i].gameId) ==>
      games[i] in r
  {
    var ks := KeptIndices(games);
    var r := Pick(games, ks);
    CleanupFacts(games, ks, r);
    KeptIdless(games, ks);
    r
  }

  /** The clean-up facts, gathered for the function's contract. */
  lemma CleanupFacts(games: seq<GameRecord>, ks: seq<nat>, r: seq<GameRecord>)
    requires ks == KeptIndices(games)
    requires |r| == |ks| && forall k :: 0 <= k < |ks| ==> r[k] == games[ks[k]]
    ensures UniqueIds(r)
    ensures forall k :: 0 <= k < |r| ==> r[k] in games
    ensures forall i :: 0 <= i < |games| && games[i].gameId.Some? ==>
      exists k :: 0 <= k < |r| && r[k].gameId == games[i].gameId
    ensures forall k, i :: 0 <= k < |r| && 0 <= i < |games| && r[k].gameId.Some? && games[i].gameId == r[k].gameId ==>
      !Newer(games[i].lastUpdateTime, r[k].lastUpdateTime)
    ensures forall i :: 0 <= i < |games| && games[i].gameId.None? ==> games[i] in r
    ensures forall i :: 0 <= i < |games| && (forall j :: 0 <= j < |games| && j != i ==> games[j].gameId != games[i].gameId) ==>
      games[i] in r
  {
    KeptAreUnique(games, ks, r);
    NoIdLost(games, ks, r);
    KeptAreNewest(games, ks, r);
    KeptWithoutId(games, ks, r);
    KeptWhenUnique(games, ks, r);
  }

  lemma KeptWithoutId(games: seq<GameRecord>, ks: seq<nat>, r: seq<GameRecord>)
    requires ks == KeptIndices(games)
    requires |r| == |ks| && forall k :: 0 <= k < |ks| ==> r[k] == games[ks[k]]
    ensures forall i :: 0 <= i < |games| && games[i].gameId.None? ==> games[i] in r
  {
    forall i | 0 <= i < |games| && games[i].gameId.None?
      ensures games[i] in r
    {
      KeptRecordIn(games, ks, r, i);
    }
  }

  lemma KeptWhenUnique(games: seq<GameRecord>, ks: seq<nat>, r: seq<GameRecord>)
    requires ks == KeptIndices(games)
    requires |r| == |ks| && forall k :: 0 <= k < |ks| ==> r[k] == games[ks[k]]
    ensures forall i :: 0 <= i < |games| && (forall j :: 0 <= j < |games| && j != i ==> games[j].gameId != games[i].gameId) ==>
      games[i] in r
  {
    forall i | 0 <= i < |games| && (forall j :: 0 <= j < |games| && j != i ==> games[j].gameId != games[i].gameId)
      ensures games[i] in r
    {
      assert WithId(games[i].gameId)(games[i]);
      KeptRecordIn(games, ks, r, i);
    }
  }

  lemma KeptAreUnique(games: seq<GameRecord>, ks: seq<nat>, r: seq<GameRecord>)
    requires ks == KeptIndices(games)
    requires |r| == |ks| && forall k :: 0 <= k < |ks| ==> r[k] == games[ks[k]]
    ensures UniqueIds(r)
  {
    forall k1, k2 | 0 <= k1 < k2 < |r| && r[k1].gameId.Some?
      ensures r[k1].gameId != r[k2].gameId
    {
      assert Survives(games, ks[k1]) && Survives(games, ks[k2]);
    }
  }

  lemma NoIdLost(games: seq<GameRecord>, ks: seq<nat>, r: seq<GameRecord>)
    requires ks == KeptIndices(games)
    requires |r| == |ks| && forall k :: 0 <= k < |ks| ==> r[k] == games[ks[k]]
    ensures forall i :: 0 <= i < |games| && games[i].gameId.Some? ==>
      exists k :: 0 <= k < |r| && r[k].gameId == games[i].gameId
  {
    forall i | 0 <= i < |games| && games[i].gameId.Some?
      ensures exists k :: 0 <= k < |r| && r[k].gameId == games[i].gameId
    {
      var id := games[i].gameId;
      assert WithId(id)(games[i]);
      var w := Newest(games, WithId(id)).value;
      assert games[w].gameId == id;
      assert Survives(games, w);
      var k :| 0 <= k < |ks| && ks[k] == w;
      assert r[k].gameId == id;
    }
  }

  lemma KeptAreNewest(games: seq<GameRecord>, ks: seq<nat>, r: seq<GameRecord>)
    requires ks == KeptIndices(games)
    requires |r| == |ks| && forall k :: 0 <= k < |ks| ==> r[k] == games[ks[k]]
    ensures forall k, i :: 0 <= k < |r| && 0 <= i < |games| && r[k].gameId.Some? && games[i].gameId == r[k].gameId ==>
      !Newer(games[i].lastUpdateTime, r[k].lastUpdateTime)
  {
    forall k, i | 0 <= k < |r| && 0 <= i < |games| && r[k].gameId.Some? && games[i].gameId == r[k].gameId
      ensures !Newer(games[i].lastUpdateTime, r[k].lastUpdateTime)
    {
      assert Survives(games, ks[k]);
      assert WithId(r[k].gameId)(games[i]);
    }
  }

  lemma KeptRecordIn(games: seq<GameRecord>, ks: seq<nat>, r: seq<GameRecord>, i: int)
    requires ks == KeptIndices(games)
    requires |r| == |ks| && forall k :: 0 <= k < |ks| ==> r[k] == games[ks[k]]
    requires 0 <= i < |games| && Survives(games, i)
    ensures games[i] in r
  {
    var k :| 0 <= k < |ks| && ks[k] == i;
    assert r[k] == games[i];
  }

  /** The positions `0 .. n - 1` in order. */
  function Upto(n: nat): (r: seq<nat>)
    ensures |r| == n && forall i :: 0 <= i < n ==> r[i] == i
  {
    if n == 0 then [] else Upto(n - 1) + [n - 1]
  }

  /** A mask set everywhere keeps every position. */
  lemma {:induction false} AllPositions(mask: seq<bool>, n: nat)
    requires n <= |mask|
    requires forall i :: 0 <= i < |mask| ==> mask[i]
    ensures Positions(mask, n) == Upto(n)
  {
    if n > 0 {
      AllPositions(mask, n - 1);
      assert mask[n - 1];
    }
  }

  /** A store that already has one record per id is left exactly as it is. */
  lemma CleanupOfUniqueIsIdentity(games: seq<GameRecord>)
    requires UniqueIds(games)
    ensures CleanupDuplicateGames(games) == games
  {
    forall i | 0 <= i < |games| ensures Survives(games, i) {
      if games[i].gameId.Some? {
        var sel := WithId(games[i].gameId);
        assert sel(games[i]);
        var w := Newest(games, sel).value;
        assert sel(games[w]);
        assert w == i;
      }
    }
    AllPositions(SurvivorMask(games), |games|);
  }

  /** Running the clean-up twice removes nothing more than running it once. */
  lemma CleanupIdempotent(games: seq<GameRecord>)
    ensures CleanupDuplicateGames(CleanupDuplicateGames(games)) == CleanupDuplicateGames(games)
  {
    CleanupOfUniqueIsIdentity(CleanupDuplicateGames(games));
  }
}

=== FILE: game_model.dfy ===
/**
 * The puzzle instance as the session sees it. The puzzle engine that builds
 * and mutates these values (encryption, guessing, hints, scoring) is not
 * part of this model: the session receives those operations as function
 * parameters and relies on nothing about them.
 */
module GameModel {
  import opened Wrappers

  /** A quotation handed to the puzzle engine to build a game. */
  datatype Quote = Quote(text: string, author: string, attribution: Option<string>)

  /** The daily quotation as the server describes it; `date` is its ISO-8601 text. */
  datatype DailyQuote = DailyQuote(
    id: int,
    text: string,
    author: string,
    minorAttribution: Option<string>,
    date: string,
    uniqueLetters: int)
  {
    function ToQuote(): Quote {
      Quote(text, author, minorAttribution)
    }
  }

  /** One cryptogram game. Times are whole seconds on one clock. */
  datatype Game = Game(
    gameId: Option<string>,
    encrypted: string,
    solution: string,
    currentDisplay: string,
    mapping: map<char, char>,
    correctMappings: map<char, char>,
    guessedMappings: map<char, char>,
    incorrectGuesses: map<char, set<char>>,
    selectedLetter: Option<char>,
    mistakes: int,
    maxMistakes: int,
    hasWon: bool,
    hasLost: bool,
    difficulty: string,
    startTime: int,
    lastUpdateTime: int)
  {
    /** Won or lost: the game is over. */
    predicate IsFinished() {
      hasWon || hasLost
    }

    /** Seconds from the start to the last update, the time charged to the player. */
    function ElapsedSeconds(): int {
      lastUpdateTime - startTime
    }
  }
}

=== FILE: game_session.dfy ===
/**
 * The session controller around one game: the mistake limit chosen from
 * the difficulty setting, infinite mode, the guards around guesses and
 * hints, resetting (with abandonment of the offered saved game), and the
 * look-up of a game to resume. The puzzle engine's own operations arrive
 * as function parameters and nothing is assumed about them.
 */
module GameSession {
  import opened Wrappers
  import opened Text
  import opened Identifiers
  import opened GameModel
  import opened GameStore
  import opened UserStats

  /** The mistake limit that makes losing practically impossible. */
  const InfiniteMaxMistakes: int := 999

  /** The quote used when no active quote can be loaded. */
  const FallbackQuote: Quote := Quote("THE QUICK BROWN FOX JUMPS OVER THE LAZY DOG", "Anonymous", None)

  /** Lower-casing `d` gives the lower-case word `w` exactly when they agree up to case. */
  lemma LowerIsWord(d: string, w: string)
    requires forall i :: 0 <= i < |w| ==> LowerChar(w[i]) == w[i]
    ensures Lower(d) == w <==> EqualsIgnoringCase(d, w)
  {
    if EqualsIgnoringCase(d, w) {
      assert Lower(d) == w;
    }
  }

  /** The mistake limit for a difficulty setting, compared without regard to letter case. */
  function MaxMistakesForDifficulty(difficulty: string): (r: int)
    ensures r == 8 <==> EqualsIgnoringCase(difficulty, "easy")
    ensures r == 3 <==> EqualsIgnoringCase(difficulty, "hard")
    ensures r == 5 <==> !EqualsIgnoringCase(difficulty, "easy") && !EqualsIgnoringCase(difficulty, "hard")
  {
    LowerIsWord(difficulty, "easy");
    LowerIsWord(difficulty, "hard");
    var d := Lower(difficulty);
    if d == "easy" then 8
    else if d == "hard" then 3
    else 5
  }

  /** The session state the controller keeps besides the store. */
  datatype Session = Session(
    currentGame: Option<Game>,
    savedGame: Option<Game>,
    isInfiniteMode: bool,
    isDailyChallenge: bool,
    dailyQuote: Option<DailyQuote>,
    showWinMessage: bool,
    showLoseMessage: bool,
    showContinueGameModal: bool)

  /** What a finished game hands to the user statistics and to the upload queue. */
  datatype Completion = Completion(won: bool, score: int, timeTaken: int, mistakes: int)

  /** The result of a player action: new session, new store, and the completion it reports, if any. */
  datatype Step = Step(session: Session, store: Store, completion: Option<Completion>)

  /** Keep playing after a loss: the loss is cleared and the mistake limit lifted. */
  function EnableInfiniteMode(s: Session): (r: Session)
    ensures r.isInfiniteMode
    ensures r.currentGame.Some? <==> s.currentGame.Some?
    ensures s.currentGame.Some? ==>
      var g := s.currentGame.value;
      var h := r.currentGame.value;
      && !h.hasLost
      && h.maxMistakes == InfiniteMaxMistakes
      && h.(hasLost := g.hasLost, maxMistakes := g.maxMistakes) == g
    ensures r.(isInfiniteMode := s.isInfiniteMode, currentGame := s.currentGame) == s
  {
    match s.currentGame
    case None => s.(isInfiniteMode := true)
    case Some(g) => s.(isInfiniteMode := true, currentGame := Some(g.(hasLost := false, maxMistakes := InfiniteMaxMistakes)))
  }

  /** After a move: persist the game, then report and flag a win or a loss. */
  function AfterMove(s: Session, store: Store, account: Account, game: Game, score: Game -> int): Step {
    var saved := SaveGameState(store, game, s.isInfiniteMode, s.isDailyChallenge, account, score(game));
    var s1 := s.(currentGame := Some(game));
    var done := Completion(game.hasWon, score(game), game.ElapsedSeconds(), game.mistakes);
    if game.hasWon then Step(s1.(showWinMessage := true), saved, Some(done))
    else if game.hasLost then Step(s1.(showLoseMessage := true), saved, Some(done))
    else Step(s1, saved, None)
  }

  /** The game after a move has been saved, when saving is possible for it. */
  predicate Persisted(r: Step, game: Game, s: Session) {
    var key := SaveKey(game, s.isInfiniteMode);
    key.Some? ==>
      FirstWithId(r.store.games, key.value).Some? &&
      HoldsGame(r.store.games[FirstWithId(r.store.games, key.value).value], game, s.isDailyChallenge)
  }

  /**
   * The session, store and report after a move that produced `game`: the
   * game becomes current, it is saved, a win or a loss is reported and
   * flagged, and nothing else in the session changes.
   */
  predicate MoveEffects(r: Step, game: Game, s: Session, store: Store, account: Account, score: Game -> int) {
    && r.session.currentGame == Some(game)
    && r.session.(currentGame := s.currentGame, showWinMessage := s.showWinMessage, showLoseMessage := s.showLoseMessage) == s
    && r.store == SaveGameState(store, game, s.isInfiniteMode, s.isDailyChallenge, account, score(game))
    && (s.isInfiniteMode ==> r.store == store)
    && Persisted(r, game, s)
    && r.store.users.Keys >= store.users.Keys
    && (r.completion.Some? <==> game.IsFinished())
    && (r.completion.Some? ==>
          r.completion.value == Completion(game.hasWon, score(game), game.ElapsedSeconds(), game.mistakes))
    && r.session.showWinMessage == (s.showWinMessage || game.hasWon)
    && r.session.showLoseMessage == (s.showLoseMessage || (game.hasLost && !game.hasWon))
  }

  /**
   * A guess goes to the engine only when a game is running and a letter is
   * selected; otherwise nothing happens at all.
   */
  function MakeGuess(s: Session, store: Store, account: Account, letter: char,
                     guess: (Game, char) -> Game, score: Game -> int): (r: Step)
    ensures s.currentGame.None? || s.currentGame.value.selectedLetter.None? ==> r == Step(s, store, None)
    ensures s.currentGame.Some? && s.currentGame.value.selectedLetter.Some? ==>
      MoveEffects(r, guess(s.currentGame.value, letter), s, store, account, score)
  {
    match s.currentGame
    case None => Step(s, store, None)
    case Some(g) =>
      if g.selectedLetter.None? then Step(s, store, None)
      else AfterMove(s, store, account, guess(g, letter), score)
  }

  /** A hint goes to the engine only while the mistake count is below the limit. */
  function GetHint(s: Session, store: Store, account: Account,
                   hint: Game -> Game, score: Game -> int): (r: Step)
    ensures s.currentGame.None? || s.currentGame.value.mistakes >= s.currentGame.value.maxMistakes ==>
      r == Step(s, store, None)
    ensures s.currentGame.Some? && s.currentGame.value.mistakes < s.currentGame.value.maxMistakes ==>
      MoveEffects(r, hint(s.currentGame.value), s, store, account, score)
  {
    match s.currentGame
    case None => Step(s, store, None)
    case Some(g) =>
      if g.mistakes < g.maxMistakes then AfterMove(s, store, account, hint(g), score)
      else Step(s, store, None)
  }

  /** Once infinite mode is on, no guess or hint writes to the store. */
  lemma InfiniteModeSuspendsSaving(s: Session, store: Store, account: Account, letter: char,
                                   guess: (Game, char) -> Game, hint: Game -> Game, score: Game -> int)
    ensures MakeGuess(EnableInfiniteMode(s), store, account, letter, guess, score).store == store
    ensures GetHint(EnableInfiniteMode(s), store, account, hint, score).store == store
  {
  }

  /** In infinite mode a hint is refused only at 999 mistakes, whatever the old limit was. */
  lemma InfiniteModeHintGuard(s: Session, store: Store, account: Account, hint: Game -> Game, score: Game -> int)
    requires s.currentGame.Some?
    ensures
      var t := EnableInfiniteMode(s);
      var r := GetHint(t, store, account, hint, score);
      && (s.currentGame.value.mistakes < InfiniteMaxMistakes ==>
            r.session.currentGame == Some(hint(t.currentGame.value)) && r.store == store)
      && (s.currentGame.value.mistakes >= InfiniteMaxMistakes ==> r == Step(t, store, None))
  {
  }

  /**
   * `setupCustomGame`: a new custom game from the picked active quote (none
   * when no quote is available, which falls back to a fixed quote).
   * `newId` stands for the freshly generated UUID.
   */
  function SetupCustomGame(s: Session, settingsDifficulty: string, picked: Option<Quote>, newId: Uuid,
                           encrypt: Quote -> Game): (r: Session)
    ensures !r.isDailyChallenge && r.dailyQuote.None? && r.currentGame.Some?
    ensures r.currentGame.value.difficulty == settingsDifficulty
    ensures r.currentGame.value.maxMistakes == MaxMistakesForDifficulty(settingsDifficulty)
    // The game is the engine's encipherment of the picked quote, or of the fallback quote.
    ensures
      var e := encrypt(picked.GetOr(FallbackQuote));
      r.currentGame.value.(difficulty := e.difficulty, maxMistakes := e.maxMistakes, gameId := e.gameId) == e
    ensures picked.Some? ==> r.currentGame.value.gameId == Some(newId) && !r.showWinMessage && !r.showLoseMessage
    ensures picked.None? ==> r.currentGame.value.gameId == encrypt(FallbackQuote).gameId
    ensures picked.None? ==> r.showWinMessage == s.showWinMessage && r.showLoseMessage == s.showLoseMessage
    ensures r.savedGame == s.savedGame && r.isInfiniteMode == s.isInfiniteMode
    ensures r.showContinueGameModal == s.showContinueGameModal
  {
    var s1 := s.(isDailyChallenge := false, dailyQuote := None);
    var quote := picked.GetOr(FallbackQuote);
    var g := encrypt(quote).(difficulty := settingsDifficulty, maxMistakes := MaxMistakesForDifficulty(settingsDifficulty));
    if picked.Some? then
      s1.(currentGame := Some(g.(gameId := Some(newId))), showWinMessage := false, showLoseMessage := false)
    else
      s1.(currentGame := Some(g))
  }

  /**
   * Starting over: infinite mode ends, the offered saved game is marked
   * abandoned, and a daily session rebuilds the daily game under its
   * `daily-<date>` id while a custom session sets up a new custom game.
   */
  function ResetGame(s: Session, store: Store, cmp: IdComparison, settingsDifficulty: string, encrypt: Quote -> Game,
                     picked: Option<Quote>, newId: Uuid): (r: Step)
    ensures !r.session.isInfiniteMode && r.session.savedGame.None? && r.completion.None?
    ensures s.savedGame.Some? && s.savedGame.value.gameId.Some? ==>
      r.store == MarkGameAsAbandoned(store, s.savedGame.value.gameId.value, cmp)
    ensures s.savedGame.None? || s.savedGame.value.gameId.None? ==> r.store == store
    ensures r.session.showContinueGameModal == s.showContinueGameModal
    ensures s.isDailyChallenge && s.dailyQuote.Some? ==>
      var e := encrypt(s.dailyQuote.value.ToQuote());
      && r.session.isDailyChallenge
      && r.session.dailyQuote == s.dailyQuote
      && !r.session.showWinMessage && !r.session.showLoseMessage
      && r.session.currentGame.Some?
      && r.session.currentGame.value.(difficulty := e.difficulty, maxMistakes := e.maxMistakes, gameId := e.gameId) == e
      && r.session.currentGame.value.gameId == Some(DailyGameId(s.dailyQuote.value.date))
      && r.session.currentGame.value.difficulty == settingsDifficulty
      && r.session.currentGame.value.maxMistakes == MaxMistakesForDifficulty(settingsDifficulty)
    ensures !(s.isDailyChallenge && s.dailyQuote.Some?) ==>
      r.session == SetupCustomGame(s, settingsDifficulty, picked, newId, encrypt).(isInfiniteMode := false, savedGame := None)
  {
    var abandoned :=
      if s.savedGame.Some? && s.savedGame.value.gameId.Some?
      then MarkGameAsAbandoned(store, s.savedGame.value.gameId.value, cmp)
      else store;
    var s1 := s.(isInfiniteMode := false);
    var s2 :=
      if s1.isDailyChallenge && s1.dailyQuote.Some? then
        var daily := s1.dailyQuote.value;
        var g := encrypt(daily.ToQuote()).(
          difficulty := settingsDifficulty,
          maxMistakes := MaxMistakesForDifficulty(settingsDifficulty),
          gameId := Some(DailyGameId(daily.date)));
        s1.(currentGame := Some(g), showWinMessage := false, showLoseMessage := false)
      else
        SetupCustomGame(s1, settingsDifficulty, picked, newId, encrypt);
    Step(s2.(savedGame := None), abandoned, None)
  }

  /**
   * A daily game rebuilt by a reset is never written to the store: its id
   * is not a UUID, so no later guess (by an engine that keeps the id)
   * saves it.
   */
  lemma DailyResetGameIsNeverSaved(s: Session, store: Store, cmp: IdComparison, settingsDifficulty: string, encrypt: Quote -> Game,
                                   picked: Option<Quote>, newId: Uuid, account: Account, letter: char,
                                   guess: (Game, char) -> Game, score: Game -> int)
    requires s.isDailyChallenge && s.dailyQuote.Some?
    requires forall g: Game, c: char :: guess(g, c).gameId == g.gameId
    ensures
      var reset := ResetGame(s, store, cmp, settingsDifficulty, encrypt, picked, newId);
      MakeGuess(reset.session, reset.store, account, letter, guess, score).store == reset.store
  {
    var reset := ResetGame(s, store, cmp, settingsDifficulty, encrypt, picked, newId);
    DailyIdIsNotUuid(s.dailyQuote.value.date);
    var g := reset.session.currentGame.value;
    assert guess(g, letter).gameId == g.gameId;
  }

  /** `checkForInProgressGame`: offer the most recently updated unfinished game of the current mode. */
  function CheckForInProgressGame(s: Session, store: Store, toModel: GameRecord -> Game): (r: Session)
    ensures InProgressGame(store.games, s.isDailyChallenge).None? ==> r == s
    ensures InProgressGame(store.games, s.isDailyChallenge).Some? ==>
      var rec := InProgressGame(store.games, s.isDailyChallenge).value;
      && r.savedGame == Some(toModel(rec))
      && r.showContinueGameModal
      && r.(savedGame := s.savedGame, showContinueGameModal := s.showContinueGameModal) == s
  {
    match InProgressGame(store.games, s.isDailyChallenge)
    case None => s
    case Some(rec) => s.(savedGame := Some(toModel(rec)), showContinueGameModal := true)
  }

  /**
   * Declining the offered game: when the offered game's model carries the
   * record's UUID, ids are unique and the id string matches its UUID,
   * resetting marks that record lost, so it is never offered again.
   */
  lemma ResetAbandonsOfferedGame(s: Session, store: Store, toModel: GameRecord -> Game,
                                 settingsDifficulty: string, encrypt: Quote -> Game,
                                 picked: Option<Quote>, newId: Uuid)
    requires UniqueIds(store.games)
    requires forall rec: GameRecord :: rec.gameId.Some? ==> toModel(rec).gameId == Some(rec.gameId.value)
    requires InProgressGame(store.games, s.isDailyChallenge).Some?
    requires InProgressGame(store.games, s.isDailyChallenge).value.gameId.Some?
    ensures
      var offered := InProgressGame(store.games, s.isDailyChallenge).value;
      var reset := ResetGame(CheckForInProgressGame(s, store, toModel), store, TextMatches, settingsDifficulty, encrypt, picked, newId);
      forall j :: 0 <= j < |reset.store.games| && reset.store.games[j].gameId == offered.gameId ==>
        !IsResumable(reset.store.games[j], s.isDailyChallenge)
  {
    var offered := InProgressGame(store.games, s.isDailyChallenge).value;
    var u := offered.gameId.value;
    var checked := CheckForInProgressGame(s, store, toModel);
    assert checked.savedGame.value.gameId == Some(u);
    ParseCanonical(u);
    AbandonedGameIsNotResumable(store, u, s.isDailyChallenge);
  }

  /** Two resumable records of the session's mode sharing one UUID, the second updated later. */
  function DuplicatePair(isDaily: bool): seq<GameRecord> {
    var u: Uuid := "00000000-0000-0000-0000-000000000000";
    [NewRecord(u, 0).(lastUpdateTime := Some(1), isDaily := isDaily),
     NewRecord(u, 0).(lastUpdateTime := Some(2), isDaily := isDaily)]
  }

  /** Of the pair, the later record is offered. */
  lemma DuplicatePairOffer(isDaily: bool)
    ensures InProgressGame(DuplicatePair(isDaily), isDaily) == Some(DuplicatePair(isDaily)[1])
  {
    var games := DuplicatePair(isDaily);
    assert IsResumable(games[1], isDaily);
    var r := InProgressGame(games, isDaily).value;
    assert r == games[0] || r == games[1];
  }

  /** Abandoning the pair's UUID marks the earlier record and leaves the later one as it was. */
  lemma DuplicatePairAbandon(isDaily: bool, users: map<string, Option<Stats>>)
    ensures
      var games := DuplicatePair(isDaily);
      var r := MarkGameAsAbandoned(Store(games, users), games[1].gameId.value, TextMatches);
      r.games[0].hasLost && r.games[1] == games[1]
  {
    var games := DuplicatePair(isDaily);
    var u := games[1].gameId.value;
    ParseCanonical(u);
    FirstWithIdAt(games, u, 0);
    assert AbandonTarget(games, u, TextMatches) == Some(0);
  }

  /**
   * Without unique ids the offer and the abandonment can disagree: of two
   * records sharing a UUID the newer one is offered, but abandoning marks
   * the first one in store order, so declining leaves the offered game
   * resumable.
   */
  lemma DuplicateOfferSurvivesReset(s: Session, users: map<string, Option<Stats>>, toModel: GameRecord -> Game,
                                    settingsDifficulty: string, encrypt: Quote -> Game,
                                    picked: Option<Quote>, newId: Uuid)
    requires forall rec: GameRecord :: rec.gameId.Some? ==> toModel(rec).gameId == Some(rec.gameId.value)
    ensures
      var store := Store(DuplicatePair(s.isDailyChallenge), users);
      var reset := ResetGame(CheckForInProgressGame(s, store, toModel), store, TextMatches, settingsDifficulty, encrypt, picked, newId);
      && InProgressGame(store.games, s.isDailyChallenge) == Some(store.games[1])
      && reset.store.games[0].hasLost
      && reset.store.games[1] == store.games[1]
      && IsResumable(reset.store.games[1], s.isDailyChallenge)
  {
    var store := Store(DuplicatePair(s.isDailyChallenge), users);
    DuplicatePairOffer(s.isDailyChallenge);
    DuplicatePairAbandon(s.isDailyChallenge, users);
    var checked := CheckForInProgressGame(s, store, toModel);
    assert checked.savedGame == Some(toModel(store.games[1]));
  }

  /**
   * When the id string never matches the UUID column, declining does not
   * abandon anything: the store is unchanged and the same record is
   * offered again.
   */
  lemma UnmatchedResetKeepsOffer(s: Session, store: Store, toModel: GameRecord -> Game,
                                 settingsDifficulty: string, encrypt: Quote -> Game,
                                 picked: Option<Quote>, newId: Uuid)
    requires InProgressGame(store.games, s.isDailyChallenge).Some?
    ensures
      var offered := InProgressGame(store.games, s.isDailyChallenge);
      var reset := ResetGame(CheckForInProgressGame(s, store, toModel), store, NeverMatches, settingsDifficulty, encrypt, picked, newId);
      && reset.store == store
      && (reset.session.isDailyChallenge == s.isDailyChallenge ==>
            InProgressGame(reset.store.games, reset.session.isDailyChallenge) == offered)
  {
  }

  /**
   * `reset`: the session is cleared and a placeholder game is built from
   * the default quote with the settings difficulty. Infinite mode and the
   * daily quote are not touched.
   */
  function Reset(s: Session, settingsDifficulty: string, encrypt: Quote -> Game): (r: Session)
    ensures r.currentGame.Some?
    ensures
      var e := encrypt(FallbackQuote);
      r.currentGame.value.(difficulty := e.difficulty, maxMistakes := e.maxMistakes) == e
    ensures r.currentGame.value.difficulty == settingsDifficulty
    ensures r.currentGame.value.maxMistakes == MaxMistakesForDifficulty(settingsDifficulty)
    ensures r.savedGame.None? && !r.isDailyChallenge
    ensures !r.showWinMessage && !r.showLoseMessage && !r.showContinueGameModal
    ensures r.isInfiniteMode == s.isInfiniteMode && r.dailyQuote == s.dailyQuote
  {
    var g := encrypt(FallbackQuote).(
      difficulty := settingsDifficulty,
      maxMistakes := MaxMistakesForDifficulty(settingsDifficulty));
    s.(currentGame := Some(g), savedGame := None, isDailyChallenge := false,
       showWinMessage := false, showLoseMessage := false, showContinueGameModal := false)
  }

  /**
   * The placeholder game of `reset` is the game a custom setup builds when no
   * quote is available: both encipher the same text and author with the
   * settings difficulty. The two quotes differ only in their floating-point
   * difficulty (2.0 for `reset`, none for the fallback), which `Quote` leaves out.
   */
  lemma ResetBuildsFallbackGame(s: Session, settingsDifficulty: string, encrypt: Quote -> Game, newId: Uuid)
    ensures Reset(s, settingsDifficulty, encrypt).currentGame
         == SetupCustomGame(s, settingsDifficulty, None, newId, encrypt).currentGame
  {
  }
}

=== FILE: game_store.dfy ===
/**
 * The local store of games and users, as a value: a sequence of game
 * records (in the order a fetch returns them) and a table of users, each
 * with an optional statistics row. Every operation is a function from the
 * old store to the new one.
 */
module GameStore {
  import opened Wrappers
  import opened Identifiers
  import opened GameModel
  import opened MappingCodec
  import opened UserStats

  /** One stored game row. Optional columns are `Option`s; maps are stored in string form. */
  datatype GameRecord = GameRecord(
    gameId: Option<Uuid>,
    encrypted: string,
    solution: string,
    currentDisplay: string,
    mapping: map<string, string>,
    correctMappings: map<string, string>,
    guessedMappings: map<string, string>,
    incorrectGuesses: map<string, set<string>>,
    mistakes: int,
    maxMistakes: int,
    hasWon: bool,
    hasLost: bool,
    difficulty: string,
    startTime: Option<int>,
    lastUpdateTime: Option<int>,
    isDaily: bool,
    score: int,
    timeTaken: int,
    user: Option<string>)

  /** Games, and users by user id; `None` is a user row without statistics yet. */
  datatype Store = Store(games: seq<GameRecord>, users: map<string, Option<Stats>>)

  /** The signed-in user, if any, as the user state reports it. */
  datatype Account = Account(isAuthenticated: bool, userId: string) {
    /** The user a saved game gets linked to: only an authenticated, non-empty id. */
    function LinkedUser(): Option<string> {
      if isAuthenticated && |userId| > 0 then Some(userId) else None
    }
  }

  /** The id column of the store, record by record. */
  function Ids(games: seq<GameRecord>): (ids: seq<Option<Uuid>>)
    ensures |ids| == |games|
    ensures forall i :: 0 <= i < |games| ==> ids[i] == games[i].gameId
  {
    seq(|games|, i requires 0 <= i < |games| => games[i].gameId)
  }

  /** No two records share a non-nil id. */
  predicate UniqueIds(games: seq<GameRecord>) {
    forall i, j :: 0 <= i < j < |games| && games[i].gameId.Some? ==> games[i].gameId != games[j].gameId
  }

  /** Every statistics row in the user table is consistent. */
  predicate AllConsistent(users: map<string, Option<Stats>>) {
    forall k :: k in users && users[k].Some? ==> Consistent(users[k].value)
  }

  // ---------------------------------------------------------------------
  // Ordering by last update, a missing time counting as the earliest

  /** `a` is strictly later than `b`; a missing time is earlier than any time. */
  predicate Newer(a: Option<int>, b: Option<int>) {
    a.Some? && (b.None? || a.value > b.value)
  }

  /**
   * The record that sorting the selected records by last update, newest
   * first, puts in front: a selected record no other selected record is
   * newer than, and among equally new ones the first in store order.
   */
  function Newest(games: seq<GameRecord>, sel: GameRecord -> bool): (r: Option<nat>)
    ensures r.None? <==> forall j :: 0 <= j < |games| ==> !sel(games[j])
    ensures r.Some? ==> r.value < |games| && sel(games[r.value])
    ensures r.Some? ==> forall j :: 0 <= j < |games| && sel(games[j]) ==>
      !Newer(games[j].lastUpdateTime, games[r.value].lastUpdateTime)
    ensures r.Some? ==> forall j :: 0 <= j < r.value && sel(games[j]) ==>
      Newer(games[r.value].lastUpdateTime, games[j].lastUpdateTime)
  {
    if |games| == 0 then None
    else
      var last := |games| - 1;
      var front := games[..last];
      assert forall j :: 0 <= j < last ==> front[j] == games[j];
      var r := Newest(front, sel);
      if sel(games[last]) && (r.None? || Newer(games[last].lastUpdateTime, games[r.value].lastUpdateTime))
      then Some(last)
      else r
  }

  // ---------------------------------------------------------------------
  // Looking up the most recent game in progress

  /** A game of the given mode (daily or custom) that is neither won nor lost. */
  predicate IsResumable(g: GameRecord, isDaily: bool) {
    g.isDaily == isDaily && !g.hasWon && !g.hasLost
  }

  function Resumable(isDaily: bool): GameRecord -> bool {
    (g: GameRecord) => IsResumable(g, isDaily)
  }

  /**
   * The unfinished game of the current mode updated most recently, if any:
   * the first row of the fetch filtered by mode and state, sorted by last
   * update descending, limited to one.
   */
  function InProgressGame(games: seq<GameRecord>, isDaily: bool): (r: Option<GameRecord>)
    ensures r.None? <==> forall j :: 0 <= j < |games| ==> !IsResumable(games[j], isDaily)
    ensures r.Some? ==> r.value in games && IsResumable(r.value, isDaily)
    ensures r.Some? ==> forall j :: 0 <= j < |games| && IsResumable(games[j], isDaily) ==>
      !Newer(games[j].lastUpdateTime, r.value.lastUpdateTime)
  {
    match Newest(games, Resumable(isDaily))
    case None => None
    case Some(i) => Some(games[i])
  }

  // ---------------------------------------------------------------------
  // Saving a game

  /** The first record with id `id`, as the `.first` of a fetch by id. */
  function FirstWithId(games: seq<GameRecord>, id: Uuid): (r: Option<nat>)
    ensures r.None? <==> forall j :: 0 <= j < |games| ==> games[j].gameId != Some(id)
    ensures r.Some? ==> r.value < |games| && games[r.value].gameId == Some(id)
    ensures r.Some? ==> forall j :: 0 <= j < r.value ==> games[j].gameId != Some(id)
  {
    if |games| == 0 then None
    else if games[0].gameId == Some(id) then Some(0)
    else
      match FirstWithId(games[1..], id)
      case None => None
      case Some(k) => Some(k + 1)
  }

  /** A record with the id that no earlier record has is the first one. */
  lemma FirstWithIdAt(games: seq<GameRecord>, id: Uuid, i: nat)
    requires i < |games| && games[i].gameId == Some(id)
    requires forall j :: 0 <= j < i ==> games[j].gameId != Some(id)
    ensures FirstWithId(games, id) == Some(i)
  {
  }

  /** The record holds everything a save writes from `game` while in mode `isDaily`. */
  predicate HoldsGame(r: GameRecord, game: Game, isDaily: bool) {
    && r.encrypted == game.encrypted
    && r.solution == game.solution
    && r.currentDisplay == game.currentDisplay
    && r.mistakes == game.mistakes
    && r.maxMistakes == game.maxMistakes
    && r.hasWon == game.hasWon
    && r.hasLost == game.hasLost
    && r.difficulty == game.difficulty
    && r.lastUpdateTime == Some(game.lastUpdateTime)
    && r.isDaily == isDaily
    && r.mapping == CharToStringMap(game.mapping)
    && r.correctMappings == CharToStringMap(game.correctMappings)
    && r.guessedMappings == CharToStringMap(game.guessedMappings)
    && r.incorrectGuesses == EncodeIncorrectGuesses(game.incorrectGuesses)
  }

  /**
   * Copies the game's state into a record. The id, start time, score, time
   * taken and user link are left as they were.
   */
  function UpdateGameEntity(rec: GameRecord, game: Game, isDaily: bool): (r: GameRecord)
    ensures HoldsGame(r, game, isDaily)
    ensures r.gameId == rec.gameId && r.startTime == rec.startTime && r.user == rec.user
    ensures r.score == rec.score && r.timeTaken == rec.timeTaken
  {
    rec.(
      encrypted := game.encrypted,
      solution := game.solution,
      currentDisplay := game.currentDisplay,
      mistakes := game.mistakes,
      maxMistakes := game.maxMistakes,
      hasWon := game.hasWon,
      hasLost := game.hasLost,
      difficulty := game.difficulty,
      lastUpdateTime := Some(game.lastUpdateTime),
      isDaily := isDaily,
      mapping := CharToStringMap(game.mapping),
      correctMappings := CharToStringMap(game.correctMappings),
      guessedMappings := CharToStringMap(game.guessedMappings),
      incorrectGuesses := EncodeIncorrectGuesses(game.incorrectGuesses))
  }

  /** Reading back the stored cipher mapping of a saved game, in any iteration order, gives the game's mapping. */
  lemma StoredMappingRoundTrip(r: GameRecord, game: Game, isDaily: bool, order: seq<string>)
    requires HoldsGame(r, game, isDaily)
    requires Enumerates(order, r.mapping)
    ensures StringToCharMap(r.mapping, order) == game.mapping
  {
    CharMapRoundTrip(game.mapping, order);
  }

  /** A freshly inserted row: the id and start time are set before the game is copied in. */
  function NewRecord(id: Uuid, startTime: int): GameRecord {
    GameRecord(Some(id), "", "", "", map[], map[], map[], map[], 0, 0, false, false, "",
      Some(startTime), None, false, 0, 0, None)
  }

  /** The key a save uses; none in infinite mode, without an id, or with an id that is not a UUID. */
  function SaveKey(game: Game, infiniteMode: bool): (r: Option<Uuid>)
    ensures r.Some? <==> !infiniteMode && game.gameId.Some? && IsUuidText(game.gameId.value)
    // The key is the game's own id, spelled in upper case.
    ensures r.Some? ==>
      |r.value| == |game.gameId.value| &&
      forall i :: 0 <= i < |r.value| ==> r.value[i] == UpperHex(game.gameId.value[i])
  {
    if infiniteMode || game.gameId.None? then None else ParseUuid(game.gameId.value)
  }

  /** Where a save with key `id` writes: the first record with that id, or a new slot at the end. */
  function SlotFor(games: seq<GameRecord>, id: Uuid): nat {
    match FirstWithId(games, id)
    case Some(i) => i
    case None => |games|
  }

  /** The saved row: the game copied in, the user linked, and score and time set once the game is over. */
  function StampRecord(base: GameRecord, game: Game, isDaily: bool, account: Account, score: int): (r: GameRecord)
    ensures HoldsGame(r, game, isDaily)
    ensures r.gameId == base.gameId && r.startTime == base.startTime
    ensures game.IsFinished() ==> r.score == score && r.timeTaken == game.ElapsedSeconds()
    ensures !game.IsFinished() ==> r.score == base.score && r.timeTaken == base.timeTaken
    ensures r.user == if account.LinkedUser().Some? then account.LinkedUser() else base.user
  {
    var updated := UpdateGameEntity(base, game, isDaily);
    var linked := if account.LinkedUser().Some? then updated.(user := account.LinkedUser()) else updated;
    if game.IsFinished() then linked.(score := score, timeTaken := game.ElapsedSeconds()) else linked
  }

  /** The user table after linking: a user row without statistics is created for an unknown id. */
  function LinkUser(users: map<string, Option<Stats>>, account: Account): (r: map<string, Option<Stats>>)
    ensures forall k :: k in users ==> k in r && r[k] == users[k]
    ensures forall k :: k in r && k !in users ==> Some(k) == account.LinkedUser() && r[k].None?
    ensures account.LinkedUser().Some? ==> account.LinkedUser().value in r
  {
    match account.LinkedUser()
    case Some(uid) => if uid in users then users else users[uid := None]
    case None => users
  }

  /** Writes `rec` over the first record with its id, or appends it when there is none. */
  function Upsert(games: seq<GameRecord>, u: Uuid, rec: GameRecord): (r: seq<GameRecord>)
    requires rec.gameId == Some(u)
    ensures SlotFor(games, u) < |games| ==> Ids(r) == Ids(games)
    ensures SlotFor(games, u) == |games| ==> Ids(r) == Ids(games) + [Some(u)]
    ensures FirstWithId(r, u) == Some(SlotFor(games, u))
    ensures r[SlotFor(games, u)] == rec
    ensures forall j :: 0 <= j < |games| && j != SlotFor(games, u) ==> r[j] == games[j]
  {
    var i := SlotFor(games, u);
    var r := if i < |games| then games[i := rec] else games + [rec];
    assert forall j :: 0 <= j < i ==> r[j] == games[j];
    FirstWithIdAt(r, u, i);
    assert i < |games| ==> Ids(r) == Ids(games);
    assert i == |games| ==> Ids(r) == Ids(games) + [Some(u)];
    r
  }

  /**
   * Saving the game state: an upsert keyed by the game's UUID. `score` is
   * what the game's own scoring returns for `game`; it is stored only once
   * the game is won or lost.
   */
  function SaveGameState(store: Store, game: Game, infiniteMode: bool, isDaily: bool, account: Account, score: int): (r: Store)
    // Guards: nothing is written in infinite mode, without an id, or with a non-UUID id.
    ensures SaveKey(game, infiniteMode).None? ==> r == store
    // The id column changes only by appending the key when no record had it.
    ensures SaveKey(game, infiniteMode).Some? ==>
      var u := SaveKey(game, infiniteMode).value;
      var i := SlotFor(store.games, u);
      && (i < |store.games| ==> Ids(r.games) == Ids(store.games))
      && (i == |store.games| ==> Ids(r.games) == Ids(store.games) + [Some(u)])
      && FirstWithId(r.games, u) == Some(i)
      && HoldsGame(r.games[i], game, isDaily)
      && (forall j :: 0 <= j < |store.games| && j != i ==> r.games[j] == store.games[j])
    // An update keeps the start time, an insert takes it from the game.
    ensures SaveKey(game, infiniteMode).Some? ==>
      var u := SaveKey(game, infiniteMode).value;
      var i := SlotFor(store.games, u);
      && (i < |store.games| ==> r.games[i].startTime == store.games[i].startTime)
      && (i == |store.games| ==> r.games[i].startTime == Some(game.startTime))
    // Score and time are written only for a finished game.
    ensures SaveKey(game, infiniteMode).Some? ==>
      var u := SaveKey(game, infiniteMode).value;
      var i := SlotFor(store.games, u);
      && (game.IsFinished() ==> r.games[i].score == score && r.games[i].timeTaken == game.ElapsedSeconds())
      && (!game.IsFinished() && i < |store.games| ==>
            r.games[i].score == store.games[i].score && r.games[i].timeTaken == store.games[i].timeTaken)
      && (!game.IsFinished() && i == |store.games| ==> r.games[i].score == 0 && r.games[i].timeTaken == 0)
    // The signed-in user is linked (and created without statistics if unknown); no user row changes.
    ensures SaveKey(game, infiniteMode).Some? ==>
      var u := SaveKey(game, infiniteMode).value;
      var i := SlotFor(store.games, u);
      && (account.LinkedUser().Some? ==> r.games[i].user == account.LinkedUser())
      && (account.LinkedUser().None? && i < |store.games| ==> r.games[i].user == store.games[i].user)
      && (account.LinkedUser().None? && i == |store.games| ==> r.games[i].user.None?)
      && (forall k :: k in store.users ==> k in r.users && r.users[k] == store.users[k])
      && (forall k :: k in r.users && k !in store.users ==> Some(k) == account.LinkedUser() && r.users[k].None?)
      && (account.LinkedUser().Some? ==> account.LinkedUser().value in r.users)
  {
    match SaveKey(game, infiniteMode)
    case None => store
    case Some(u) =>
      var i := SlotFor(store.games, u);
      var base := if i < |store.games| then store.games[i] else NewRecord(u, game.startTime);
      var rec := StampRecord(base, game, isDaily, account, score);
      Store(Upsert(store.games, u, rec), LinkUser(store.users, account))
  }

  /** Saving never gives an id a second record. */
  lemma SaveKeepsIdsUnique(store: Store, game: Game, infiniteMode: bool, isDaily: bool, account: Account, score: int)
    requires UniqueIds(store.games)
    ensures UniqueIds(SaveGameState(store, game, infiniteMode, isDaily, account, score).games)
  {
  }

  /** Saving the same state twice is the same as saving it once. */
  lemma SaveIdempotent(store: Store, game: Game, infiniteMode: bool, isDaily: bool, account: Account, score: int)
    ensures
      var once := SaveGameState(store, game, infiniteMode, isDaily, account, score);
      SaveGameState(once, game, infiniteMode, isDaily, account, score) == once
  {
  }

  /** Saving each state of a game in turn. */
  function SaveAll(store: Store, history: seq<Game>, infiniteMode: bool, isDaily: bool, account: Account, score: Game -> int): Store
  {
    if |history| == 0 then store
    else
      var last := history[|history| - 1];
      SaveGameState(SaveAll(store, history[..|history| - 1], infiniteMode, isDaily, account, score),
        last, infiniteMode, isDaily, account, score(last))
  }

  /** One save with key `u` leaves one record for `u` if there was none, else as many as before. */
  lemma SaveCountsKey(store: Store, game: Game, u: Uuid, isDaily: bool, account: Account, score: int)
    requires SaveKey(game, false) == Some(u)
    ensures
      var r := SaveGameState(store, game, false, isDaily, account, score);
      var before := multiset(Ids(store.games))[Some(u)];
      multiset(Ids(r.games))[Some(u)] == (if before == 0 then 1 else before)
  {
    var r := SaveGameState(store, game, false, isDaily, account, score);
    var i := SlotFor(store.games, u);
    if i == |store.games| {
      assert Some(u) !in Ids(store.games) by {
        forall j | 0 <= j < |store.games| ensures Ids(store.games)[j] != Some(u) { }
      }
    } else {
      assert Ids(store.games)[i] == Some(u);
    }
  }

  /**
   * Saving successive states of one game, starting from at most one record
   * for its id, leaves exactly one record for that id, holding the latest state.
   */
  lemma {:induction false} RepeatedSavesKeepOneRecord(
    store: Store, history: seq<Game>, u: Uuid, isDaily: bool, account: Account, score: Game -> int)
    requires |history| >= 1
    requires forall k :: 0 <= k < |history| ==> SaveKey(history[k], false) == Some(u)
    requires multiset(Ids(store.games))[Some(u)] <= 1
    ensures
      var r := SaveAll(store, history, false, isDaily, account, score);
      && multiset(Ids(r.games))[Some(u)] == 1
      && FirstWithId(r.games, u).Some?
      && HoldsGame(r.games[FirstWithId(r.games, u).value], history[|history| - 1], isDaily)
  {
    var front := history[..|history| - 1];
    var last := history[|history| - 1];
    var before := SaveAll(store, front, false, isDaily, account, score);
    if |front| > 0 {
      RepeatedSavesKeepOneRecord(store, front, u, isDaily, account, score);
    }
    assert multiset(Ids(before.games))[Some(u)] <= 1;
    SaveCountsKey(before, last, u, isDaily, account, score(last));
  }

  // ---------------------------------------------------------------------
  // Abandoning a game

  /**
   * How the store's fetch predicate compares a string with the UUID-typed id
   * column: either a string matches the UUID it spells, or no string ever
   * equals a UUID value. The program does not settle which.
   */
  datatype IdComparison = TextMatches | NeverMatches

  /** The first record whose id the string `gameId` matches under `cmp`, if any. */
  function AbandonTarget(games: seq<GameRecord>, gameId: string, cmp: IdComparison): (r: Option<nat>)
    ensures cmp == NeverMatches ==> r.None?
    ensures cmp == TextMatches && ParseUuid(gameId).None? ==> r.None?
    ensures cmp == TextMatches && ParseUuid(gameId).Some? ==> r == FirstWithId(games, ParseUuid(gameId).value)
  {
    if cmp == NeverMatches then None
    else
      match ParseUuid(gameId)
      case None => None
      case Some(u) => FirstWithId(games, u)
  }

  /**
   * Marks the first record with the id as lost and clears a positive streak
   * of the user it is linked to. An id with no record changes nothing.
   */
  function MarkGameAsAbandoned(store: Store, gameId: string, cmp: IdComparison): (r: Store)
    ensures AbandonTarget(store.games, gameId, cmp).None? ==> r == store
    ensures Ids(r.games) == Ids(store.games)
    ensures r.users.Keys == store.users.Keys
    ensures AbandonTarget(store.games, gameId, cmp).Some? ==>
      var i := AbandonTarget(store.games, gameId, cmp).value;
      && r.games[i].hasLost
      && r.games[i].(hasLost := store.games[i].hasLost) == store.games[i]
      && (forall j :: 0 <= j < |store.games| && j != i ==> r.games[j] == store.games[j])
    ensures AbandonTarget(store.games, gameId, cmp).Some? ==>
      var owner := store.games[AbandonTarget(store.games, gameId, cmp).value].user;
      && (forall k :: k in store.users && Some(k) != owner ==> r.users[k] == store.users[k])
      && (owner.Some? && owner.value in store.users ==>
            var before := store.users[owner.value];
            var after := r.users[owner.value];
            && after.Some? == before.Some?
            && (before.Some? && before.value.currentStreak > 0 ==> after.value.currentStreak == 0)
            && (before.Some? && before.value.currentStreak <= 0 ==> after == before)
            && (before.Some? ==> after.value.(currentStreak := before.value.currentStreak) == before.value))
    ensures AllConsistent(store.users) ==> AllConsistent(r.users)
  {
    match AbandonTarget(store.games, gameId, cmp)
    case None => store
    case Some(i) =>
      var games := store.games[i := store.games[i].(hasLost := true)];
      var owner := store.games[i].user;
      var users :=
        if owner.Some? && owner.value in store.users && store.users[owner.value].Some?
        then store.users[owner.value := Some(ResetStreak(store.users[owner.value].value))]
        else store.users;
      Store(games, users)
  }

  /**
   * With one record per id, and a predicate under which the id string
   * matches its UUID, an abandoned game can no longer be offered for resumption.
   */
  lemma AbandonedGameIsNotResumable(store: Store, gameId: string, isDaily: bool)
    requires UniqueIds(store.games)
    requires ParseUuid(gameId).Some?
    ensures
      var r := MarkGameAsAbandoned(store, gameId, TextMatches);
      forall j :: 0 <= j < |r.games| && r.games[j].gameId == ParseUuid(gameId) ==> !IsResumable(r.games[j], isDaily)
  {
    var r := MarkGameAsAbandoned(store, gameId, TextMatches);
    var u := ParseUuid(gameId).value;
    forall j | 0 <= j < |r.games| && r.games[j].gameId == Some(u)
      ensures !IsResumable(r.games[j], isDaily)
    {
      assert Ids(r.games)[j] == Ids(store.games)[j];
      var i := FirstWithId(store.games, u).value;
      assert store.games[j].gameId == Some(u);
      assert j == i;
    }
  }

  // ---------------------------------------------------------------------
  // Submitting a daily score

  /**
   * Records the current game in the user's statistics once it is won or
   * lost, creating the statistics row on first use. A user id with no user
   * row changes nothing. `score` is the game's own scoring.
   */
  function SubmitDailyScore(store: Store, current: Option<Game>, userId: string, score: Game -> int): (r: Store)
    ensures r.games == store.games
    ensures r.users.Keys == store.users.Keys
    ensures current.None? || !current.value.IsFinished() || userId !in store.users ==> r == store
    ensures current.Some? && current.value.IsFinished() && userId in store.users ==>
      && r.users[userId] == Some(RecordResult(store.users[userId].GetOr(FreshStats), current.value.hasWon, score(current.value)))
      && (forall k :: k in store.users && k != userId ==> r.users[k] == store.users[k])
    ensures AllConsistent(store.users) ==> AllConsistent(r.users)
  {
    match current
    case None => store
    case Some(game) =>
      if !game.IsFinished() || userId !in store.users then store
      else
        var before := store.users[userId].GetOr(FreshStats);
        store.(users := store.users[userId := Some(RecordResult(before, game.hasWon, score(game)))])
  }
}

=== FILE: identifiers.dfy ===
/**
 * Game identifiers. Records in the local store are keyed by a UUID; a game
 * model carries its id as a string, which `UUID(uuidString:)` accepts only
 * in the 8-4-4-4-12 hexadecimal form (either letter case). A parsed UUID is
 * kept in its canonical upper-case spelling, which is what `uuidString`
 * prints, so two spellings that differ only in hex letter case name the
 * same record.
 */
module Identifiers {
  import opened Wrappers

  predicate IsHexDigit(c: char) {
    '0' <= c <= '9' || 'a' <= c <= 'f' || 'A' <= c <= 'F'
  }

  /** Positions of the four hyphens in `XXXXXXXX-XXXX-XXXX-XXXX-XXXXXXXXXXXX`. */
  predicate IsHyphenPosition(i: int) {
    i == 8 || i == 13 || i == 18 || i == 23
  }

  /** `s` has the shape `UUID(uuidString:)` accepts. */
  predicate IsUuidText(s: string) {
    |s| == 36 &&
    forall i :: 0 <= i < |s| ==> if IsHyphenPosition(i) then s[i] == '-' else IsHexDigit(s[i])
  }

  /** A well-shaped UUID spelled with upper-case hex letters only. */
  predicate IsCanonicalUuid(s: string) {
    IsUuidText(s) && forall i :: 0 <= i < |s| ==> !('a' <= s[i] <= 'f')
  }

  type Uuid = s: string | IsCanonicalUuid(s) witness "00000000-0000-0000-0000-000000000000"

  function UpperHex(c: char): char {
    if 'a' <= c <= 'f' then (c as int - 32) as char else c
  }

  /** `UUID(uuidString: s)`: the canonical UUID `s` spells, if `s` is well shaped. */
  function ParseUuid(s: string): (r: Option<Uuid>)
    ensures r.Some? <==> IsUuidText(s)
    ensures r.Some? ==> |r.value| == |s| && forall i :: 0 <= i < |s| ==> r.value[i] == UpperHex(s[i])
  {
    if IsUuidText(s) then
      var u := seq(|s|, i requires 0 <= i < |s| => UpperHex(s[i]));
      assert IsCanonicalUuid(u);
      Some(u)
    else None
  }

  /** Parsing the canonical spelling of a UUID (`uuidString`) gives the same UUID back. */
  lemma ParseCanonical(u: Uuid)
    ensures ParseUuid(u) == Some(u)
  {
    var r := ParseUuid(u);
    assert r.value == u;
  }

  /** Two spellings name the same UUID exactly when they agree up to hex letter case. */
  lemma ParseIgnoresHexCase(s: string, t: string)
    requires IsUuidText(s) && IsUuidText(t)
    ensures ParseUuid(s) == ParseUuid(t) <==> forall i :: 0 <= i < 36 ==> UpperHex(s[i]) == UpperHex(t[i])
  {
    var a := ParseUuid(s).value;
    var b := ParseUuid(t).value;
    if forall i :: 0 <= i < 36 ==> UpperHex(s[i]) == UpperHex(t[i]) {
      assert a == b;
    }
  }

  /** The id given to a daily game fetched from the server or rebuilt on reset. */
  function DailyGameId(date: string): string {
    "daily-" + date
  }

  /** A daily game id is never a UUID, whatever the date text: its third character is 'i'. */
  lemma DailyIdIsNotUuid(date: string)
    ensures ParseUuid(DailyGameId(date)).None?
  {
    var s := DailyGameId(date);
    assert s[..6] == "daily-";
    assert s[2] == 'i';
    assert !IsUuidText(s) by {
      if |s| == 36 {
        assert !IsHyphenPosition(2) && !IsHexDigit(s[2]);
      }
    }
  }
}

=== FILE: mapping_codec.dfy ===
/**
 * The conversions between the game's character maps and the string maps
 * that are written to the store, and the encoding of the incorrect-guess
 * sets. Reading a string map iterates a Swift dictionary, whose order is
 * unspecified; the model takes that order as a parameter, and a later key
 * overwrites an earlier one with the same first character.
 */
module MappingCodec {

  /** Each character becomes a one-character string, on both sides of the map. */
  function CharToStringMap(m: map<char, char>): (r: map<string, string>)
    ensures r.Keys == set c | c in m :: [c]
    ensures forall c :: c in m ==> r[[c]] == [m[c]]
  {
    map c | c in m :: [c] := [m[c]]
  }

  /** An entry that survives conversion to characters: neither key nor value is empty. */
  predicate Usable(dict: map<string, string>, k: string) {
    k in dict && |k| > 0 && |dict[k]| > 0
  }

  /** `order` is an iteration order of `dict`: it lists exactly the keys of `dict`. */
  predicate Enumerates(order: seq<string>, dict: map<string, string>) {
    (forall k :: k in dict ==> k in order) &&
    (forall i :: 0 <= i < |order| ==> order[i] in dict)
  }

  /** Conversion of the entries named by `order`, in that order, later ones overwriting. */
  function DecodeEntries(dict: map<string, string>, order: seq<string>): (r: map<char, char>)
    requires forall i :: 0 <= i < |order| ==> order[i] in dict
    ensures r.Keys == set i | 0 <= i < |order| && Usable(dict, order[i]) :: order[i][0]
    ensures forall c :: c in r ==>
      exists i :: 0 <= i < |order| && Usable(dict, order[i]) && order[i][0] == c && r[c] == dict[order[i]][0]
    decreases |order|
  {
    if |order| == 0 then map[]
    else
      var front := order[..|order| - 1];
      var k := order[|order| - 1];
      var r := DecodeEntries(dict, front);
      assert forall i :: 0 <= i < |front| ==> front[i] == order[i];
      if |k| > 0 && |dict[k]| > 0 then r[k[0] := dict[k][0]] else r
  }

  /**
   * The first character of every usable key maps to the first character of
   * its value; entries with an empty key or an empty value are dropped.
   */
  function StringToCharMap(dict: map<string, string>, order: seq<string>): (r: map<char, char>)
    requires Enumerates(order, dict)
    ensures r.Keys == set k | Usable(dict, k) :: k[0]
    ensures forall c :: c in r ==> exists k :: Usable(dict, k) && k[0] == c && r[c] == dict[k][0]
    ensures (forall k, l :: Usable(dict, k) && Usable(dict, l) && k[0] == l[0] ==> k == l) ==>
      forall k :: Usable(dict, k) ==> r[k[0]] == dict[k][0]
  {
    var r := DecodeEntries(dict, order);
    assert forall k :: Usable(dict, k) ==> k[0] in r by {
      forall k | Usable(dict, k) ensures k[0] in r {
        var i :| 0 <= i < |order| && order[i] == k;
      }
    }
    r
  }

  /** Writing a character map and reading it back, in any iteration order, gives the map back. */
  lemma CharMapRoundTrip(m: map<char, char>, order: seq<string>)
    requires Enumerates(order, CharToStringMap(m))
    ensures StringToCharMap(CharToStringMap(m), order) == m
  {
    var dict := CharToStringMap(m);
    var r := StringToCharMap(dict, order);
    forall c | c in m ensures c in r && r[c] == m[c] {
      assert Usable(dict, [c]);
      var k :| Usable(dict, k) && k[0] == c && r[c] == dict[k][0];
      assert k == [c];
    }
    forall c | c in r ensures c in m {
      var k :| Usable(dict, k) && k[0] == c && r[c] == dict[k][0];
    }
  }

  /** The incorrect guesses per cipher letter, as string keys with string sets. */
  function EncodeIncorrectGuesses(m: map<char, set<char>>): (r: map<string, set<string>>)
    ensures r.Keys == set c | c in m :: [c]
    ensures forall c :: c in m ==> r[[c]] == set v | v in m[c] :: [v]
  {
    map c | c in m :: [c] := set v | v in m[c] :: [v]
  }

  /** Encoding incorrect guesses loses nothing: different maps encode differently. */
  lemma EncodeIncorrectGuessesInjective(m1: map<char, set<char>>, m2: map<char, set<char>>)
    requires EncodeIncorrectGuesses(m1) == EncodeIncorrectGuesses(m2)
    ensures m1 == m2
  {
    var e := EncodeIncorrectGuesses(m1);
    forall c | c in m1 ensures c in m2 {
      assert [c] in e;
    }
    forall c | c in m2 ensures c in m1 {
      assert [c] in e;
    }
    forall c | c in m1 ensures m1[c] == m2[c] {
      forall v | v in m1[c] ensures v in m2[c] {
        assert [v] in e[[c]];
      }
      forall v | v in m2[c] ensures v in m1[c] {
        assert [v] in e[[c]];
      }
    }
  }
}

=== FILE: text.dfy ===
/**
 * String helpers shared by the model: splitting on a separator the way
 * Foundation's `components(separatedBy:)` does, joining, decimal rendering
 * as `String(format: "%d")` prints it, and ASCII lower-casing.
 * Strings are sequences of `char`; one `char` stands for one Swift `Character`.
 */
module Text {

  /** Index of the first `c` in `s`, or `|s|` when `c` does not occur. */
  function IndexOf(s: string, c: char): (r: nat)
    ensures r <= |s|
    ensures r < |s| ==> s[r] == c
    ensures forall i :: 0 <= i < r ==> s[i] != c
  {
    if |s| == 0 then 0
    else if s[0] == c then 0
    else 1 + IndexOf(s[1..], c)
  }

  /**
   * The pieces of `s` between occurrences of `sep`, empty pieces included:
   * `Split("", ' ') == [""]` and `Split("a  b", ' ') == ["a", "", "b"]`.
   */
  function Split(s: string, sep: char): (ws: seq<string>)
    ensures |ws| >= 1
    ensures forall k :: 0 <= k < |ws| ==> sep !in ws[k]
    decreases |s|
  {
    var i := IndexOf(s, sep);
    if i == |s| then [s]
    else [s[..i]] + Split(s[i + 1..], sep)
  }

  /** The pieces `ws` glued together with one `sep` between neighbours. */
  function Join(ws: seq<string>, sep: char): string
    requires |ws| >= 1
  {
    if |ws| == 1 then ws[0]
    else ws[0] + [sep] + Join(ws[1..], sep)
  }

  /** Joining a piece in front of at least one more puts one `sep` after it. */
  lemma JoinCons(w: string, tail: seq<string>, sep: char)
    requires |tail| >= 1
    ensures Join([w] + tail, sep) == w + [sep] + Join(tail, sep)
  {
    var ws := [w] + tail;
    assert ws[0] == w;
    assert ws[1..] == tail;
  }

  /** A string holding `sep` splits into the piece before it and the split of the rest. */
  lemma SplitCons(s: string, sep: char)
    requires IndexOf(s, sep) < |s|
    ensures Split(s, sep) == [s[..IndexOf(s, sep)]] + Split(s[IndexOf(s, sep) + 1..], sep)
  {
  }

  /** A string is the part before position `i`, the character there, and the rest. */
  lemma SliceAround(s: string, i: nat)
    requires i < |s|
    ensures s == s[..i] + [s[i]] + s[i + 1..]
  {
  }

  /** Joining the pieces of a split gives back the original string. */
  lemma {:induction false} JoinSplit(s: string, sep: char)
    ensures Join(Split(s, sep), sep) == s
    decreases |s|
  {
    var i := IndexOf(s, sep);
    if i < |s| {
      var rest := s[i + 1..];
      var tail := Split(rest, sep);
      calc {
        Join(Split(s, sep), sep);
      == { SplitCons(s, sep); }
        Join([s[..i]] + tail, sep);
      == { JoinCons(s[..i], tail, sep); }
        s[..i] + [sep] + Join(tail, sep);
      == { JoinSplit(rest, sep); }
        s[..i] + [sep] + rest;
      == { SliceAround(s, i); }
        s;
      }
    }
  }

  /** The first `sep` in `a + [sep] + b` sits right after `a` when `a` has none. */
  lemma IndexOfAfterWord(a: string, sep: char, b: string)
    requires sep !in a
    ensures IndexOf(a + [sep] + b, sep) == |a|
  {
    var s := a + [sep] + b;
    assert s[|a|] == sep;
  }

  /** Splitting a join of separator-free pieces gives back the pieces. */
  lemma {:induction false} SplitJoin(ws: seq<string>, sep: char)
    requires |ws| >= 1
    requires forall k :: 0 <= k < |ws| ==> sep !in ws[k]
    ensures Split(Join(ws, sep), sep) == ws
  {
    if |ws| > 1 {
      var a := ws[0];
      var rest := Join(ws[1..], sep);
      var s := a + [sep] + rest;
      assert Join(ws, sep) == s;
      IndexOfAfterWord(a, sep, rest);
      assert s[..|a|] == a;
      assert s[|a| + 1..] == rest;
      SplitJoin(ws[1..], sep);
      assert Split(s, sep) == [a] + ws[1..];
      assert [a] + ws[1..] == ws;
    }
  }

  /** Decimal digit character for `d`. */
  function Digit(d: nat): char
    requires d < 10
  {
    (48 + d) as char
  }

  predicate IsDigit(c: char) {
    '0' <= c <= '9'
  }

  /** Numeric value of a digit character (0 for anything else). */
  function DigitValue(c: char): nat {
    if IsDigit(c) then c as int - 48 else 0
  }

  /** `n` in decimal without leading zeros, as `%d` prints a non-negative value. */
  function Decimal(n: nat): (r: string)
    ensures |r| >= 1
    ensures forall i :: 0 <= i < |r| ==> IsDigit(r[i])
    ensures r[0] == '0' <==> n == 0
  {
    if n < 10 then [Digit(n)]
    else Decimal(n / 10) + [Digit(n % 10)]
  }

  /** Value of a string of digits, read most significant digit first. */
  function ParseDecimal(s: string): nat {
    if |s| == 0 then 0
    else ParseDecimal(s[..|s| - 1]) * 10 + DigitValue(s[|s| - 1])
  }

  /** Reading back a rendered number gives the number. */
  lemma {:induction false} ParseDecimalOfDecimal(n: nat)
    ensures ParseDecimal(Decimal(n)) == n
  {
    if n >= 10 {
      var s := Decimal(n / 10) + [Digit(n % 10)];
      assert s[..|s| - 1] == Decimal(n / 10);
      ParseDecimalOfDecimal(n / 10);
    }
  }

  /** Any integer as `%d` (and Swift string interpolation) prints it. */
  function FormatInt(n: int): string {
    if n < 0 then "-" + Decimal(-n) else Decimal(n)
  }

  /** Reads an optionally signed decimal number. */
  function ParseInt(s: string): int {
    if |s| > 0 && s[0] == '-' then 0 - ParseDecimal(s[1..]) as int else ParseDecimal(s)
  }

  /** Reading back a printed integer gives the integer, so different integers print differently. */
  lemma FormatIntRoundTrip(n: int)
    ensures |FormatInt(n)| >= 1
    ensures ParseInt(FormatInt(n)) == n
  {
    if n < 0 {
      assert FormatInt(n)[1..] == Decimal(-n);
      ParseDecimalOfDecimal(-n);
    } else {
      assert IsDigit(FormatInt(n)[0]);
      ParseDecimalOfDecimal(n);
    }
  }

  /** ASCII lower-casing of one character. */
  function LowerChar(c: char): char {
    if 'A' <= c <= 'Z' then (c as int + 32) as char else c
  }

  /** ASCII lower-casing of a string, character by character. */
  function Lower(s: string): (r: string)
    ensures |r| == |s|
    ensures forall i :: 0 <= i < |s| ==> r[i] == LowerChar(s[i])
  {
    seq(|s|, i requires 0 <= i < |s| => LowerChar(s[i]))
  }

  /** `a` and `b` agree up to ASCII letter case, position by position. */
  predicate EqualsIgnoringCase(a: string, b: string) {
    |a| == |b| && forall i :: 0 <= i < |a| ==> LowerChar(a[i]) == LowerChar(b[i])
  }
}

=== FILE: user_stats.dfy ===
/**
 * The integer part of a user's statistics row and the two ways the game
 * layer changes it: recording a finished game (the daily score submission)
 * and resetting the streak when a game is abandoned.
 */
module UserStats {

  datatype Stats = Stats(
    gamesPlayed: int,
    gamesWon: int,
    currentStreak: int,
    bestStreak: int,
    totalScore: int)

  /** The counters of a stats row created on first use. */
  const FreshStats := Stats(0, 0, 0, 0, 0)

  /** Counters that can arise from play: streaks bounded by wins, wins by games. */
  predicate Consistent(s: Stats) {
    0 <= s.currentStreak <= s.bestStreak <= s.gamesWon <= s.gamesPlayed
  }

  /** One more finished game: a win extends the streak, a loss ends it. */
  function RecordResult(s: Stats, won: bool, score: int): (r: Stats)
    ensures r.gamesPlayed == s.gamesPlayed + 1
    ensures r.totalScore == s.totalScore + score
    ensures won ==> r.gamesWon == s.gamesWon + 1 && r.currentStreak == s.currentStreak + 1
    ensures won ==> r.bestStreak >= r.currentStreak && r.bestStreak >= s.bestStreak
    ensures won ==> r.bestStreak == s.bestStreak || r.bestStreak == r.currentStreak
    ensures !won ==> r.gamesWon == s.gamesWon && r.currentStreak == 0 && r.bestStreak == s.bestStreak
    ensures Consistent(s) ==> Consistent(r)
  {
    var played := s.gamesPlayed + 1;
    var total := s.totalScore + score;
    if won then
      var streak := s.currentStreak + 1;
      var best := if s.bestStreak >= streak then s.bestStreak else streak;
      Stats(played, s.gamesWon + 1, streak, best, total)
    else
      Stats(played, s.gamesWon, 0, s.bestStreak, total)
  }

  /** Abandoning a game clears a positive streak and touches nothing else. */
  function ResetStreak(s: Stats): (r: Stats)
    ensures s.currentStreak > 0 ==> r.currentStreak == 0
    ensures s.currentStreak <= 0 ==> r == s
    ensures r.(currentStreak := s.currentStreak) == s
    ensures Consistent(s) ==> Consistent(r) && r.currentStreak == 0
  {
    if s.currentStreak > 0 then s.(currentStreak := 0) else s
  }

  /** Something that happens to a user's statistics. */
  datatype Event = Finished(won: bool, score: int) | Abandoned

  function Apply(s: Stats, e: Event): Stats {
    match e
    case Finished(won, score) => RecordResult(s, won, score)
    case Abandoned => ResetStreak(s)
  }

  /** The statistics after a history of events, starting from a fresh row. */
  function Replay(h: seq<Event>): Stats {
    if |h| == 0 then FreshStats else Apply(Replay(h[..|h| - 1]), h[|h| - 1])
  }

  // Reference quantities read directly off a history.

  function CountFinished(h: seq<Event>): nat {
    if |h| == 0 then 0 else CountFinished(h[..|h| - 1]) + (if h[|h| - 1].Finished? then 1 else 0)
  }

  predicate IsWin(e: Event) {
    e.Finished? && e.won
  }

  function CountWins(h: seq<Event>): nat {
    if |h| == 0 then 0 else CountWins(h[..|h| - 1]) + (if IsWin(h[|h| - 1]) then 1 else 0)
  }

  function ScoreSum(h: seq<Event>): int {
    if |h| == 0 then 0
    else ScoreSum(h[..|h| - 1]) + (if h[|h| - 1].Finished? then h[|h| - 1].score else 0)
  }

  /** Events `i` up to (not including) `j` are all wins. */
  predicate IsWinRun(h: seq<Event>, i: int, j: int)
    requires 0 <= i <= j <= |h|
  {
    forall k :: i <= k < j ==> IsWin(h[k])
  }

  /** The `n` events from position `i` on are all wins. */
  predicate WinRunAt(h: seq<Event>, i: int, n: nat) {
    0 <= i && i + n <= |h| && IsWinRun(h, i, i + n)
  }

  /** Number of wins at the end of the history with no loss or abandonment after them. */
  function TrailingWins(h: seq<Event>): nat {
    if |h| == 0 || !IsWin(h[|h| - 1]) then 0 else TrailingWins(h[..|h| - 1]) + 1
  }

  lemma {:induction false} TrailingWinsIsRun(h: seq<Event>)
    ensures TrailingWins(h) <= |h|
    ensures IsWinRun(h, |h| - TrailingWins(h), |h|)
  {
    if |h| > 0 && IsWin(h[|h| - 1]) {
      var front := h[..|h| - 1];
      TrailingWinsIsRun(front);
      assert forall k :: 0 <= k < |front| ==> front[k] == h[k];
    }
  }

  lemma {:induction false} WinRunWithinTrailing(h: seq<Event>, i: int)
    requires 0 <= i <= |h|
    requires IsWinRun(h, i, |h|)
    ensures |h| - i <= TrailingWins(h)
  {
    if i < |h| {
      var front := h[..|h| - 1];
      assert IsWin(h[|h| - 1]);
      assert forall k :: 0 <= k < |front| ==> front[k] == h[k];
      assert IsWinRun(front, i, |front|);
      WinRunWithinTrailing(front, i);
    }
  }

  /**
   * Replaying a history gives the counts read off the history: games played,
   * games won, total score, the current run of wins, and a best streak that
   * is exactly the longest run of consecutive wins.
   */
  lemma {:induction false} ReplayMatchesHistory(h: seq<Event>)
    ensures Consistent(Replay(h))
    ensures Replay(h).gamesPlayed == CountFinished(h)
    ensures Replay(h).gamesWon == CountWins(h)
    ensures Replay(h).totalScore == ScoreSum(h)
    ensures Replay(h).currentStreak == TrailingWins(h)
    ensures forall i, j :: 0 <= i <= j <= |h| && IsWinRun(h, i, j) ==> j - i <= Replay(h).bestStreak
    ensures Replay(h).bestStreak >= 0 && exists i :: WinRunAt(h, i, Replay(h).bestStreak)
  {
    var s := Replay(h);
    if |h| == 0 {
      assert WinRunAt(h, 0, 0);
    } else {
      var front := h[..|h| - 1];
      var e := h[|h| - 1];
      ReplayMatchesHistory(front);
      var p := Replay(front);
      assert s == Apply(p, e);
      assert forall k :: 0 <= k < |front| ==> front[k] == h[k];
      forall i, j | 0 <= i <= j <= |h| && IsWinRun(h, i, j)
        ensures j - i <= s.bestStreak
      {
        if j < |h| {
          assert IsWinRun(front, i, j);
        } else if i < j {
          WinRunWithinTrailing(h, i);
        }
      }
      TrailingWinsIsRun(h);
      var i0 :| WinRunAt(front, i0, p.bestStreak);
      assert WinRunAt(h, i0, p.bestStreak);
      if s.bestStreak != p.bestStreak {
        assert s.bestStreak == s.currentStreak;
        assert WinRunAt(h, |h| - s.bestStreak, s.bestStreak);
      }
    }
  }
}

=== FILE: wrappers.dfy ===
/** Optional values, standing for Swift optionals (`T?`) throughout the model. */
module Wrappers {

  datatype Option<+T> = None | Some(value: T) {

    /** The wrapped value, or `default` when there is none (Swift's `??`). */
    function GetOr(default: T): T {
      match this
      case Some(v) => v
      case None => default
    }
  }
}
